=== FILE: README.md ===
# tsdx build configuration, modelled in Dafny

tsdx is a zero-configuration bundler for TypeScript libraries. For each requested module format
(`cjs`, `esm`, `umd`) and environment (`development`, `production`), it calls
`createRollupConfig(format, opts)` in `src/createRollupConfig.ts` to get the Rollup configuration
of that build. This project models that function and the `babelOptions` helper next to it. It
covers:

- **minification** (`Naming.ShouldMinify`). An explicit `minify` option wins; otherwise only
  production builds are minified.
- **output file name** (`Naming`). The name is
  `[dist/slug, format, env, min?, 'js'].filter(Boolean).join('.')`. An inverse parser shows that
  the name determines format, environment and minification.
- **external override** (`Externals`). The async-to-promises helper module is always bundled.
  Every other id goes to the general policy.
- **source-map path rewrite** (`SourceMaps`). `path.resolve(appDist, p).replace(appRoot, name)`
  is built from a POSIX `path.resolve` (`PosixPath`) and the first-occurrence string `replace`
  with its `$` substitution patterns (`JsReplace`).
- **shebang transform** (`Shebang`). For each module Rollup transforms, `/^#!(.*)/` is
  stripped and the captured line (or `''`) is recorded in a cache keyed by package name, so
  each transformed module overwrites the entry of the one before. The module-level cache object is passed in and returned
  explicitly.
- **plugin pipelines** (`Pipeline`). The plugins are tags. The Rollup `plugins` array is
  returned unfiltered: a switched-off `cond && plugin` entry stays in it as `false`
  (`Pipeline.RollupSlots`), and Rollup skips such entries itself (`Gated.Present`). The Babel
  plugin array drops its `false` entries with `filter(Boolean)` (`Gated.Gate`). Both are also
  modelled as the ordered list of plugins that are switched on. The options that depend on
  the build are modelled too: `mainFields`, the
  `preset-env` node target, the TypeScript cache root, the `NODE_ENV` replacement and terser's
  `toplevel`.
- **assembly** (`RollupConfig.CreateRollupConfig`). This puts the pieces together. The module
  paths `paths.appRoot`/`paths.appDist` and the utils `safePackageName`, `safeVariableName` and
  `external` are the fields of a `Host` parameter.

Two behaviours of the code deserve a note, and the model follows the code in both:

- **`env` may be missing.** `TsdxOptions` declares `env` as required (line 25). Line 209 still
  tests `opts.env !== undefined`, so `env` is an `Option`. `extractErrors` is an optional string.
  The modelled code uses it only for its truthiness. Its value also goes, inside `opts`, to the
  error-code registry factory of lines 72-75, which is left out.
- **The root is replaced wherever it first occurs.** `replace(paths.appRoot, opts.name)` replaces
  the first occurrence of the root text anywhere in the resolved path. So paths outside the root
  are rewritten too:
  - `/w/pkg-utils/a.ts` next to a root `/w/pkg` becomes `<name>-utils/a.ts`
    (`SourceMaps.SiblingDirectoryRewritten`);
  - `/x/w/pkg/y` becomes `/x<name>/y` (`SourceMaps.RewriteFirstOccurrence`).

## Model

| member | source | states |
|---|---|---|
| Naming.ShouldMinify | src/createRollupConfig.ts:77-78 | an explicit `minify` decides alone; without it, a build is minified exactly when `env` is production |
| Naming.NoMinifyByDefault | src/createRollupConfig.ts:77-78 | with `minify` unset, a development build or one without `env` is never minified |
| Naming.OutputName | src/createRollupConfig.ts:80-88 | `filter(Boolean).join('.')` of the five segments; an empty prefix vanishes with its dot, leaving just the format, env and min segments and `js`; for any other prefix `OutputNameLayout` gives the layout |
| Naming.OutputNameLayout | src/createRollupConfig.ts:80-88 | after dropping falsy segments and joining with `.`, the name is the prefix, a dot, the format, `.<env>` only when env is set, `.min` only when minified, then `.js` |
| Naming.ParseOutputName | src/createRollupConfig.ts:80-88 | whatever coordinates the parser recovers from a file name regenerate exactly that name |
| Naming.ParseOutputNameRoundTrip | src/createRollupConfig.ts:80-88 | parsing a generated name gives back the (format, env, minify) it was generated from |
| Naming.OutputNameInjective | src/createRollupConfig.ts:80-88 | for one package prefix, two builds share an output file only if format, env and minify all agree |
| Naming.ExpectedCjsDevelopmentName | test/tests/tsdx-build.test.js:25-27 | a CommonJS development build without `minify` writes `<prefix>.cjs.development.js` |
| Naming.ExpectedCjsProductionName | test/tests/tsdx-build.test.js:28-30 | a CommonJS production build without `minify` is minified and writes `<prefix>.cjs.production.min.js` |
| Naming.ExpectedEsmName | test/tests/tsdx-build.test.js:31 | an ES-module build with neither env nor minify writes `<prefix>.esm.js` |
| Strings.Truthy | src/createRollupConfig.ts:87 | `filter(Boolean)` on strings keeps no empty entry and drops no non-empty value |
| Strings.TruthyCons | src/createRollupConfig.ts:87 | the head of the list is kept exactly when it is non-empty, in front of the filtered rest |
| Strings.TruthyAppend | src/createRollupConfig.ts:87 | filtering a concatenation concatenates the filtered halves, so order and repeats are kept |
| Strings.Join | src/createRollupConfig.ts:88 | no parts give `''`; otherwise the first part opens the result, followed by the separator when more parts follow; `SplitJoin` and `JoinSplit` show the join loses nothing for separator-free parts |
| Strings.SplitJoin | src/createRollupConfig.ts:88 | splitting a join of separator-free parts gives the parts back |
| Strings.JoinSplit | src/createRollupConfig.ts:141 | joining the pieces of a split gives the original string back |
| Strings.IndexOf | src/createRollupConfig.ts:142-145 | the search succeeds exactly when the pattern occurs, and then returns an occurrence with none before it |
| JsReplace.ReplaceFirst | src/createRollupConfig.ts:142-145 | a string in which the pattern never occurs is returned unchanged; otherwise exactly the left-most occurrence is replaced by the substituted replacement and the text around it is kept |
| JsReplace.ReplaceFirstAt | src/createRollupConfig.ts:142-145 | only the left-most occurrence is replaced; text before and after it is kept verbatim when the replacement holds no `$` |
| JsReplace.ReplacePrefix | src/createRollupConfig.ts:142-145 | a pattern at the front of the string is swapped for a `$`-free replacement and the rest is kept |
| JsReplace.DollarAmpersandKeepsMatch | src/createRollupConfig.ts:142-145 | a package name `$&<suffix>` re-inserts the matched root and puts the suffix after it |
| JsReplace.Substitution | src/createRollupConfig.ts:142-145 | a replacement without `$` is inserted literally |
| JsReplace.SubstitutionDollarDollar | src/createRollupConfig.ts:142-145 | `$$` in the replacement yields one `$` |
| JsReplace.SubstitutionMatch | src/createRollupConfig.ts:142-145 | `$&` in the replacement yields the matched text |
| JsReplace.SubstitutionBefore | src/createRollupConfig.ts:142-145 | `` $` `` in the replacement yields the text before the match |
| JsReplace.SubstitutionAfter | src/createRollupConfig.ts:142-145 | `$'` in the replacement yields the text after the match |
| JsReplace.SubstitutionLiteralChar | src/createRollupConfig.ts:142-145 | any character that does not start one of those four patterns is copied as it is |
| PosixPath.Segments | src/createRollupConfig.ts:141 | normalised segments are never empty, `.`, `..` or contain `/` |
| PosixPath.Resolve | src/createRollupConfig.ts:141 | the resolved path is always absolute |
| PosixPath.ResolveSegments | src/createRollupConfig.ts:141 | an absolute `p` is normalised on its own; a relative `p` has its pieces applied left to right on top of the base's segments (`..` pops, `.` and empty pieces vanish) |
| PosixPath.Normalize | src/createRollupConfig.ts:141 | the normalising step of `path.resolve`: the result is always absolute; `Segments` shows it keeps only ordinary segments and `NormalizeIdempotent` that a second pass changes nothing |
| PosixPath.SegmentsFromSegments | src/createRollupConfig.ts:141 | an absolute path built from ordinary segments normalises back to those segments |
| PosixPath.NormalizeIdempotent | src/createRollupConfig.ts:141 | normalising a resolved path again changes nothing |
| PosixPath.ResolveFromDist | src/createRollupConfig.ts:141 | `../<rel>` resolved against `<root>/dist` is `<root>/<rel>` |
| SourceMaps.RewriteSourcePath | src/createRollupConfig.ts:141-146 | when the resolved path does not contain the root text, it is returned as resolved; otherwise the first occurrence of the root text, wherever it is, is replaced by the substituted package name |
| SourceMaps.RewriteFirstOccurrence | src/createRollupConfig.ts:141-145 | with a `$`-free name, a resolved path `<before><root><after>` whose first root occurrence is there becomes `<before><name><after>`, even when that is not at the start |
| SourceMaps.RewriteUnderRoot | src/createRollupConfig.ts:133-147 | a source `../<rel>` seen from `<root>/dist` is reported as `<name>/<rel>` |
| SourceMaps.RewriteKeepsFilesApart | src/createRollupConfig.ts:133-147 | two different files under the root keep different rewritten paths, both prefixed with the package name |
| SourceMaps.PrefixedApart | src/createRollupConfig.ts:142-145 | prefixing two different paths with the same `<name>/` keeps them different |
| SourceMaps.RewriteResolvedPrefix | src/createRollupConfig.ts:141-145 | whenever the resolved path begins with the root text, that text becomes the package name |
| SourceMaps.RewriteNormalisedSource | src/createRollupConfig.ts:141-145 | an absolute normalised source beginning with the root text is rewritten even when the root text does not end at a `/` |
| SourceMaps.SiblingDirectoryRewritten | src/createRollupConfig.ts:141-145 | for any root `<parent>/<last>`, a file in a sibling directory `<parent>/<last><ext>` outside the root becomes `<name><ext>/<rel>` (e.g. `/w/pkg-utils/a.ts` under root `/w/pkg`) |
| SourceMaps.BuildDefaultSourceExample | test/tests/tsdx-build.test.js:113-126 | for any project root, `../src/foo.ts` in a map is listed as `<name>/src/foo.ts` |
| Externals.IsExternal | src/createRollupConfig.ts:94-99 | the helpers module is never external; any other id is external exactly when the general policy says so |
| Externals.OverrideIsOnlyDifference | src/createRollupConfig.ts:94-99 | the wrapped predicate differs from the policy exactly on the helpers id, and only where the policy would externalise it |
| Externals.ExternaliseAllButHelpers | src/createRollupConfig.ts:94-99 | under an externalise-everything policy, exactly the helpers module is bundled |
| Shebang.LineEnd | src/createRollupConfig.ts:178 | finds the first line terminator (LF, CR, U+2028, U+2029) at or after a position, or the end of the code |
| Shebang.Strip | src/createRollupConfig.ts:178-183 | code without a leading `#!` is kept and records `''`; otherwise the code is split into a terminator-free `#!` line and a rest that starts at a terminator or is empty |
| Shebang.StripUnique | src/createRollupConfig.ts:178-183 | any split with those properties is the one the match produces |
| Shebang.StripIdempotent | src/createRollupConfig.ts:183 | the stripped code never starts with `#!`, so a second pass strips nothing |
| Shebang.Transform | src/createRollupConfig.ts:177-188 | returns the stripped code with a null map; records the captured line under the package name and leaves every other cache entry unchanged |
| Shebang.TransformWithoutShebang | src/createRollupConfig.ts:181-183 | code without a shebang passes through and records an empty string |
| Shebang.TransformRecordsRemovedLine | src/createRollupConfig.ts:181-183 | the recorded line followed by the returned code is the original code |
| Shebang.NodeShebangExample | src/createRollupConfig.ts:177-188 | `#!/usr/bin/env node` is recorded and removed up to, not including, its newline |
| Gated.Gate | src/createRollupConfig.ts:49-62 | a `cond && entry` after `filter(Boolean)` is one copy of the entry when the condition holds and nothing otherwise |
| Gated.Slot | src/createRollupConfig.ts:152 | a `cond && entry` in an unfiltered array literal holds the entry exactly when the condition holds, and `false` otherwise |
| Gated.Present | src/createRollupConfig.ts:151-230 | skipping the falsy slots keeps every present entry and yields nothing that was not present |
| Gated.PresentAppend | src/createRollupConfig.ts:151-230 | skipping falsy slots works slot by slot, so the kept entries keep their order |
| Gated.PresentSlot | src/createRollupConfig.ts:152 | a single `cond && entry` slot with its `false` skipped is the same as the filtered `Gate` |
| Gated.Append | src/createRollupConfig.ts:151-230 | two increasing lists in adjacent rank bands concatenate to an increasing list |
| Pipeline.BabelPlugins | src/createRollupConfig.ts:46-62 | the Babel plugins appear in source order with no repeats; rename-import exactly for non-CJS formats; the error-message transform exactly when `extractErrors` is truthy; the other four always |
| Pipeline.BabelOrdered | src/createRollupConfig.ts:46-62 | for every setting of the two gates, the Babel plugin array is in source order |
| Pipeline.RollupSlots | src/createRollupConfig.ts:151-230 | the returned array has ten slots, slot `i` holding only the plugin of rank `i`; slots 0, 2, 7 and 9 hold `false` unless `extractErrors` is truthy, the format is UMD, env is set and minification is on, respectively; the other six are always filled |
| Pipeline.RollupSlotsPresent | src/createRollupConfig.ts:151-230 | skipping the `false` slots of the returned array gives exactly `RollupPlugins` |
| Pipeline.RollupPlugins | src/createRollupConfig.ts:151-230 | of the plugins Rollup runs (the array with its `false` slots skipped), the Rollup plugins appear in source order with no repeats; error extraction iff `extractErrors` is truthy; commonjs iff UMD; replace iff env is set; terser iff minifying; resolve, json, shebang, typescript, babel and sourcemaps always |
| Pipeline.RollupOrdered | src/createRollupConfig.ts:151-230 | for every setting of the four gates, the switched-on Rollup plugins are in source order |
| Pipeline.FrontOrdered | src/createRollupConfig.ts:152-208 | the plugins up to Babel are in source order, whichever of error extraction and commonjs are on |
| Pipeline.BackOrdered | src/createRollupConfig.ts:209-229 | replace, sourcemaps and terser are in source order, whichever of replace and terser are on |
| Pipeline.NodeTarget | src/createRollupConfig.ts:41 | `preset-env` gets a node target exactly for node builds, and that target is node `'8'` |
| Pipeline.BabelOptionsFor | src/createRollupConfig.ts:31-63 | the node target above; the plugin list of `BabelPlugins` in source order; annotate-pure-calls, dev-expression, async-to-promises and class-properties always; rename-import exactly for non-CJS; the error transform exactly when `extractErrors` is truthy |
| Pipeline.MainFields | src/createRollupConfig.ts:159-163 | `module` then `main` always, plus `browser` exactly when the target is not node |
| Pipeline.CacheRoot | src/createRollupConfig.ts:193 | `./.rts2_cache_` followed by exactly the format name, so `CacheRootsDistinct` separates the formats |
| Pipeline.CacheRootsDistinct | src/createRollupConfig.ts:193 | builds of different formats never share a TypeScript cache directory |
| Pipeline.EnvLiteral | src/createRollupConfig.ts:211 | the `NODE_ENV` replacement is the environment name in double quotes |
| Pipeline.SettingsFor | src/createRollupConfig.ts:158-229 | the `mainFields` above, so `browser` iff the target is not node; the shebang cache key, under which the inline plugin's `Shebang.Transform` records, is the package name; the per-format cache root; `tsconfig` passed through; the Babel options above; `NODE_ENV` replaced iff env is set, by the quoted env name; terser's `toplevel` iff CJS |
| RollupConfig.FilePrefix | src/createRollupConfig.ts:81 | the name prefix is never empty, so it always survives `filter(Boolean)` |
| RollupConfig.GlobalName | src/createRollupConfig.ts:131 | a non-empty package name is the global name; an empty one falls back to `safeVariableName` |
| RollupConfig.CreateRollupConfig | src/createRollupConfig.ts:68-232 | entry from `opts.input`; the given format; source maps on; the file named by format/env/minify; only the helpers module is exempted from the external policy; every source path goes through the rewrite; the unfiltered plugin array, whose non-`false` entries are the plugin list above; the settings above |
| RollupConfig.OutputFilesDistinct | src/createRollupConfig.ts:80-103 | two configurations for one package write the same file only when format, env and minification agree |
| RollupConfig.HelpersAlwaysBundled | src/createRollupConfig.ts:94-97 | the async helpers are bundled whatever the general policy |
| RollupConfig.SourcesPrefixedWithName | src/createRollupConfig.ts:133-147 | with the project at `<root>` and `<root>/dist`, every `../<rel>` in a map becomes `<name>/<rel>` |
| RollupConfig.FormatsUseSeparateCaches | src/createRollupConfig.ts:191-194 | configurations of one package in different formats never share a TypeScript cache directory |
| RollupConfig.NodeEnvQuoted | src/createRollupConfig.ts:209-212 | with an environment set, the configuration replaces `process.env.NODE_ENV` with the env name in double quotes |
| RollupConfig.DevelopmentCjsBuild | src/createRollupConfig.ts:68-232 | a CJS development build without overrides writes `.cjs.development.js`, substitutes `NODE_ENV`, and has no commonjs, error extraction or terser, whose slots 0, 2 and 9 stay `false` |

## Left out

- Plugin internals and fixed options are left out. The plugins are tags; their behaviour and their constant option objects belong to external packages and configure no decision of this code. These are the lodash rename list, the Babel `exclude`/`extensions`/`passPerPreset`/preset `loose`/`modules`/`exclude`, the async-to-promises helper flags, the commonjs `include` regex, the TypeScript compiler defaults and overrides, and terser's compress/output/`ecma`/`warnings`.
- Rollup's own reading of its `plugins` option is not modelled beyond skipping the `false` entries (`Gated.Present`); what Rollup then does with each plugin belongs to Rollup.
- Constant output fields are not modelled: `freeze`, `esModule`, `treeshake`, `globals` and `exports` never vary with the build.
- `extractErrors(...)` and `findAndRecordErrorCodes` (lines 72-75, 152-157) are not modelled. The error-code registry, its file I/O and the error-message Babel transform are other modules; only whether their plugins are switched on is modelled.
- `paths`, `safePackageName`, `safeVariableName` and `external` from the utils and constants modules are not part of this model. They are the `Host` parameters.
- Running the builds, clearing the dist directory, emitting declarations and aggregating results happen outside this file and are not modelled.
- Strings are sequences of Unicode scalar values, while JavaScript strings are sequences of UTF-16 code units. `indexOf`, `replace` and the shebang regex's `.` agree on well-formed text, but a string holding a lone surrogate cannot be represented.
- Concurrency is not modelled. The shebang cache is shared module-level state; concurrent builds of one package would race on it.
- PosixPath.Resolve: a relative base is taken as rooted at `/` rather than at the process's working directory, because `paths.appDist` is absolute. `ResolveSegments` states the combination for a base made of ordinary segments, which is what a normalised `paths.appDist` is.

=== FILE: config.dfy ===
/**
 * `createRollupConfig(format, opts)`: the Rollup configuration of one build, assembled
 * from the minification decision, the output file name, the `external` override, the
 * source-map path rewrite and the plugin pipeline.
 *
 * The helpers the source imports but that are not part of this model (`paths.appRoot`,
 * `paths.appDist`, `safePackageName`, `safeVariableName` and the general `external`
 * policy) are the fields of a `Host`.
 */
module RollupConfig {
  import opened Wrappers
  import opened Strings
  import opened Options
  import opened Naming
  import opened Externals
  import opened SourceMaps
  import opened PosixPath
  import opened Pipeline
  import opened Gated

  /** The collaborators of the configuration: the two project paths and three helper functions. */
  datatype Host = Host(
    appRoot: string,
    appDist: string,
    safePackageName: string -> string,
    safeVariableName: string -> string,
    external: string -> bool)

  /** The `output` options that vary with the build; the constant ones are not modelled. */
  datatype Output = Output(
    file: string,
    format: Format,
    name: string,
    sourcemap: bool,
    sourcemapPathTransform: string -> string)

  /** The configuration handed to Rollup. */
  datatype Config = Config(
    input: string,
    external: string -> bool,
    output: Output,
    plugins: seq<Option<Plugin>>,
    settings: Settings)

  /** `${paths.appDist}/${safePackageName(opts.name)}`, the part of the file name before the format. */
  function FilePrefix(host: Host, opts: TsdxOptions): (r: string)
    ensures r != ""
  {
    host.appDist + "/" + host.safePackageName(opts.name)
  }

  /** `opts.name || safeVariableName(opts.name)`: the global name of a UMD bundle. */
  function GlobalName(host: Host, opts: TsdxOptions): (r: string)
    ensures opts.name != "" ==> r == opts.name
    ensures opts.name == "" ==> r == host.safeVariableName("")
  {
    if opts.name != "" then opts.name else host.safeVariableName(opts.name)
  }

  function CreateRollupConfig(host: Host, format: Format, opts: TsdxOptions): (r: Config)
    ensures r.input == opts.input
    ensures r.output.format == format && r.output.sourcemap
    ensures r.output.file == FilePrefix(host, opts) + "." + Suffix(format, opts.env, ShouldMinify(opts.minify, opts.env))
    ensures r.output.name == GlobalName(host, opts)
    ensures forall id :: r.external(id) <==> id != AsyncHelpers && host.external(id)
    ensures forall p :: r.output.sourcemapPathTransform(p) == RewriteSourcePath(host.appRoot, host.appDist, opts.name, p)
    ensures r.plugins == RollupSlots(format, opts)
    ensures Present(r.plugins) == RollupPlugins(format, opts)
    ensures r.settings == SettingsFor(format, opts)
  {
    var minify := ShouldMinify(opts.minify, opts.env);
    OutputNameLayout(FilePrefix(host, opts), format, opts.env, minify);
    RollupSlotsPresent(format, opts);
    Config(
      opts.input,
      id => IsExternal(host.external, id),
      Output(
        OutputName(FilePrefix(host, opts), format, opts.env, minify),
        format,
        GlobalName(host, opts),
        true,
        p => RewriteSourcePath(host.appRoot, host.appDist, opts.name, p)),
      RollupSlots(format, opts),
      SettingsFor(format, opts))
  }

  /**
   * The builds of one package never write the same file: two configurations share an
   * output file only when format, environment and minification all agree.
   */
  lemma OutputFilesDistinct(host: Host, format1: Format, opts1: TsdxOptions, format2: Format, opts2: TsdxOptions)
    requires opts1.name == opts2.name
    requires CreateRollupConfig(host, format1, opts1).output.file == CreateRollupConfig(host, format2, opts2).output.file
    ensures format1 == format2 && opts1.env == opts2.env
    ensures ShouldMinify(opts1.minify, opts1.env) == ShouldMinify(opts2.minify, opts2.env)
  {
    var prefix := FilePrefix(host, opts1);
    assert FilePrefix(host, opts2) == prefix;
    var m1 := ShouldMinify(opts1.minify, opts1.env);
    var m2 := ShouldMinify(opts2.minify, opts2.env);
    OutputNameLayout(prefix, format1, opts1.env, m1);
    OutputNameLayout(prefix, format2, opts2.env, m2);
    OutputNameInjective(prefix, format1, opts1.env, m1, format2, opts2.env, m2);
  }

  /** The async helpers are bundled whatever the general policy says. */
  lemma HelpersAlwaysBundled(host: Host, format: Format, opts: TsdxOptions)
    ensures !CreateRollupConfig(host, format, opts).external(AsyncHelpers)
  {
  }

  /**
   * With the project laid out as `<root>` and `<root>/dist`, a source `../<rel>` in a map
   * is reported as `<name>/<rel>`.
   */
  lemma SourcesPrefixedWithName(host: Host, format: Format, opts: TsdxOptions,
                                rootSegs: seq<string>, relSegs: seq<string>)
    requires |rootSegs| >= 1 && |relSegs| >= 1
    requires AllOrdinary(rootSegs) && AllOrdinary(relSegs)
    requires host.appRoot == FromSegments(rootSegs) && host.appDist == host.appRoot + "/dist"
    requires '$' !in opts.name
    ensures CreateRollupConfig(host, format, opts).output.sourcemapPathTransform("../" + Join(relSegs, '/'))
      == opts.name + ("/" + Join(relSegs, '/'))
  {
    RewriteUnderRoot(rootSegs, relSegs, opts.name);
  }

  /**
   * For the options of the `build-default` fixture built as CommonJS in development,
   * the configuration writes `<dist>/<slug>.cjs.development.js`, bundles through the
   * default pipeline without commonjs, error extraction or terser, and substitutes
   * `NODE_ENV`. The three switched-off plugins stay in the array as `false`.
   */
  lemma DevelopmentCjsBuild(host: Host, opts: TsdxOptions)
    requires opts.env == Some(Development) && opts.minify == None && opts.extractErrors == None
    ensures CreateRollupConfig(host, Cjs, opts).output.file == FilePrefix(host, opts) + ".cjs.development.js"
    ensures Some(CommonJs) !in CreateRollupConfig(host, Cjs, opts).plugins
    ensures Some(Terser) !in CreateRollupConfig(host, Cjs, opts).plugins
    ensures Some(ErrorExtraction) !in CreateRollupConfig(host, Cjs, opts).plugins
    ensures Some(Replace) in CreateRollupConfig(host, Cjs, opts).plugins
    ensures var slots := CreateRollupConfig(host, Cjs, opts).plugins;
      |slots| == 10 && slots[0] == None && slots[2] == None && slots[9] == None
  {
    ExpectedCjsDevelopmentName(FilePrefix(host, opts));
    OutputNameLayout(FilePrefix(host, opts), Cjs, opts.env, false);
  }

  /** Builds of one package in different formats never share a TypeScript cache directory. */
  lemma FormatsUseSeparateCaches(host: Host, f1: Format, f2: Format, opts: TsdxOptions)
    requires f1 != f2
    ensures CreateRollupConfig(host, f1, opts).settings.cacheRoot
      != CreateRollupConfig(host, f2, opts).settings.cacheRoot
  {
    CacheRootsDistinct(f1, f2);
  }

  /** With an environment set, `process.env.NODE_ENV` becomes the environment's name in double quotes. */
  lemma NodeEnvQuoted(host: Host, format: Format, opts: TsdxOptions)
    requires opts.env.Some?
    ensures var v := CreateRollupConfig(host, format, opts).settings.nodeEnv;
      && v.Some? && |v.value| >= 2
      && v.value[0] == '"' && v.value[|v.value| - 1] == '"'
      && v.value[1..|v.value| - 1] == EnvName(opts.env.value)
  {
  }
}

=== FILE: externals.dfy ===
/**
 * The `external` option of the configuration: which imported module ids Rollup leaves
 * out of the bundle. The general policy is the `external` helper of the utils module,
 * which this model takes as a parameter; the configuration wraps it with one override.
 */
module Externals {

  /** The helper module of the async-to-promises Babel plugin, which must be bundled. */
  const AsyncHelpers: string := "babel-plugin-transform-async-to-promises/helpers"

  /** The wrapped predicate: the helpers module is never external, any other id is decided by `policy`. */
  function IsExternal(policy: string -> bool, id: string): (r: bool)
    ensures r ==> policy(id)
    ensures r != policy(id) ==> id == AsyncHelpers
    ensures id == AsyncHelpers ==> !r
  {
    if id == AsyncHelpers then false else policy(id)
  }

  /** The override changes the answer for exactly one id, and only when the policy would externalise it. */
  lemma OverrideIsOnlyDifference(policy: string -> bool, id: string)
    ensures IsExternal(policy, id) != policy(id) <==> id == AsyncHelpers && policy(id)
  {
  }

  /** Under the policy that externalises everything, the wrapped predicate is true for every other id. */
  lemma ExternaliseAllButHelpers(id: string)
    ensures IsExternal(_ => true, id) <==> id != AsyncHelpers
  {
  }
}

=== FILE: gated.dfy ===
/**
 * Lists with switched-off entries: the source writes `cond && entry` inside an array
 * literal. As the literal holds it, such an entry is a `Slot`, with `None` for the
 * `false` left in its place. Once the falsy entries are dropped (by `.filter(Boolean)`,
 * or by Rollup when it reads its `plugins` option), the entry is a `Gate`, a list of
 * zero or one element, and the filtered array is the concatenation of the pieces.
 * Order is stated through a ranking of the entries.
 */
module Gated {
  import opened Wrappers

  /** `cond && entry` as the array literal holds it: the entry, or `None` for a `false`. */
  function Slot<T>(cond: bool, entry: T): (r: Option<T>)
    ensures r.Some? <==> cond
    ensures r.Some? ==> r.value == entry
  {
    if cond then Some(entry) else None
  }

  /** The entries of `s` with the falsy slots skipped, in order. */
  function Present<T>(s: seq<Option<T>>): (r: seq<T>)
    ensures |r| <= |s|
    ensures forall i :: 0 <= i < |r| ==> Some(r[i]) in s
    ensures forall i :: 0 <= i < |s| && s[i].Some? ==> s[i].value in r
  {
    if |s| == 0 then []
    else if s[0].None? then Present(s[1..])
    else [s[0].value] + Present(s[1..])
  }

  /** Skipping falsy slots works slot by slot, so it keeps the order of the kept entries. */
  lemma {:induction false} PresentAppend<T>(a: seq<Option<T>>, b: seq<Option<T>>)
    ensures Present(a + b) == Present(a) + Present(b)
    decreases |a|
  {
    if |a| == 0 {
      assert a + b == b;
    } else {
      assert (a + b)[0] == a[0];
      assert (a + b)[1..] == a[1..] + b;
      PresentAppend(a[1..], b);
    }
  }

  /** A single slot, once falsy slots are skipped, is the gate with the same condition. */
  lemma PresentSlot<T>(cond: bool, entry: T)
    ensures Present([Slot(cond, entry)]) == Gate(cond, entry)
  {
    assert [Slot(cond, entry)][1..] == [];
  }

  /** `cond && entry` once falsy entries are dropped: the entry when the condition holds, nothing otherwise. */
  function Gate<T>(cond: bool, entry: T): (r: seq<T>)
    ensures |r| == (if cond then 1 else 0)
    ensures forall i :: 0 <= i < |r| ==> r[i] == entry
  {
    if cond then [entry] else []
  }

  /** The ranks strictly increase along `s`, so `s` lists no entry twice. */
  predicate Increasing<T>(s: seq<T>, rank: T -> int)
  {
    forall i, j :: 0 <= i < j < |s| ==> rank(s[i]) < rank(s[j])
  }

  /** Every rank in `s` lies in `[lo, hi)`. */
  predicate Within<T>(s: seq<T>, rank: T -> int, lo: int, hi: int)
  {
    forall i :: 0 <= i < |s| ==> lo <= rank(s[i]) < hi
  }

  /** A list of at most one entry is increasing. */
  lemma Single<T>(s: seq<T>, rank: T -> int)
    requires |s| <= 1
    ensures Increasing(s, rank)
  {
  }

  /**
   * Two increasing pieces whose ranks lie in adjacent bands concatenate to an increasing
   * list spanning both bands.
   */
  lemma {:induction false} Append<T>(a: seq<T>, b: seq<T>, rank: T -> int, lo: int, mid: int, hi: int)
    requires lo <= mid <= hi
    requires Increasing(a, rank) && Within(a, rank, lo, mid)
    requires Increasing(b, rank) && Within(b, rank, mid, hi)
    ensures Increasing(a + b, rank) && Within(a + b, rank, lo, hi)
  {
    var s := a + b;
    forall i | 0 <= i < |s|
      ensures lo <= rank(s[i]) < hi
    {
      if i < |a| {
        assert s[i] == a[i];
      } else {
        assert s[i] == b[i - |a|];
      }
    }
    forall i, j | 0 <= i < j < |s|
      ensures rank(s[i]) < rank(s[j])
    {
      if j < |a| {
        assert s[i] == a[i] && s[j] == a[j];
      } else if i >= |a| {
        assert s[i] == b[i - |a|] && s[j] == b[j - |a|];
      } else {
        assert s[i] == a[i] && s[j] == b[j - |a|];
      }
    }
  }
}

=== FILE: jsreplace.dfy ===
/**
 * `String.prototype.replace` with a string pattern and a string replacement, as
 * ECMA-262 defines it together with its GetSubstitution operation: only the
 * left-most occurrence of the pattern is replaced, and in the replacement `$$`, `$&`, `` $` `` and `$'` stand for `$`, the match, the text before
 * it and the text after it. With a string pattern there are no capture groups, so every
 * other `$` is kept literally.
 */
module JsReplace {
  import opened Wrappers
  import opened Strings

  /** GetSubstitution for a match of `matched` at `position` in `str`, without captures. */
  function Substitution(str: string, position: nat, matched: string, replacement: string): (r: string)
    requires position + |matched| <= |str|
    ensures '$' !in replacement ==> r == replacement
    decreases |replacement|
  {
    if |replacement| == 0 then ""
    else if replacement[0] == '$' && |replacement| >= 2 && replacement[1] in "$&`'" then
      var rest := Substitution(str, position, matched, replacement[2..]);
      match replacement[1]
      case '$' => "$" + rest
      case '&' => matched + rest
      case '`' => str[..position] + rest
      case _ => str[position + |matched|..] + rest
    else
      assert '$' !in replacement ==> '$' !in replacement[1..];
      [replacement[0]] + Substitution(str, position, matched, replacement[1..])
  }

  /** `$$` in the replacement stands for one `$`. */
  lemma SubstitutionDollarDollar(str: string, position: nat, matched: string, rest: string)
    requires position + |matched| <= |str|
    ensures Substitution(str, position, matched, "$$" + rest) == "$" + Substitution(str, position, matched, rest)
  {
    assert ("$$" + rest)[2..] == rest;
  }

  /** `$&` in the replacement stands for the matched text. */
  lemma SubstitutionMatch(str: string, position: nat, matched: string, rest: string)
    requires position + |matched| <= |str|
    ensures Substitution(str, position, matched, "$&" + rest) == matched + Substitution(str, position, matched, rest)
  {
    assert ("$&" + rest)[2..] == rest;
  }

  /** `` $` `` in the replacement stands for the text before the match. */
  lemma SubstitutionBefore(str: string, position: nat, matched: string, rest: string)
    requires position + |matched| <= |str|
    ensures Substitution(str, position, matched, "$`" + rest) == str[..position] + Substitution(str, position, matched, rest)
  {
    var r := "$`" + rest;
    assert r[0] == '$' && r[1] == '`' && r[2..] == rest;
    assert r[1] in "$&`'";
  }

  /** `$'` in the replacement stands for the text after the match. */
  lemma SubstitutionAfter(str: string, position: nat, matched: string, rest: string)
    requires position + |matched| <= |str|
    ensures Substitution(str, position, matched, "$'" + rest) == str[position + |matched|..] + Substitution(str, position, matched, rest)
  {
    assert ("$'" + rest)[2..] == rest;
  }

  /** A character that does not start one of the four patterns is copied as it is. */
  lemma SubstitutionLiteralChar(str: string, position: nat, matched: string, c: char, rest: string)
    requires position + |matched| <= |str|
    requires c != '$' || rest == [] || rest[0] !in "$&`'"
    ensures Substitution(str, position, matched, [c] + rest) == [c] + Substitution(str, position, matched, rest)
  {
    assert ([c] + rest)[1..] == rest;
  }

  /** `str.replace(pattern, replacement)` with a string `pattern`. */
  function ReplaceFirst(str: string, pattern: string, replacement: string): (r: string)
    ensures (forall k :: !OccursAt(str, pattern, k)) ==> r == str
    ensures forall k: nat :: OccursAt(str, pattern, k) && (forall j :: 0 <= j < k ==> !OccursAt(str, pattern, j)) ==>
      r == str[..k] + Substitution(str, k, pattern, replacement) + str[k + |pattern|..]
  {
    match IndexOf(str, pattern)
    case None => str
    case Some(k) =>
      str[..k] + Substitution(str, k, pattern, replacement) + str[k + |pattern|..]
  }

  /**
   * When `pattern` first occurs at `k` and the replacement holds no `$`, the result is
   * the text before `k`, the replacement, and the text after the occurrence.
   */
  lemma ReplaceFirstAt(str: string, pattern: string, replacement: string, k: nat)
    requires OccursAt(str, pattern, k)
    requires forall j :: 0 <= j < k ==> !OccursAt(str, pattern, j)
    requires '$' !in replacement
    ensures ReplaceFirst(str, pattern, replacement) == str[..k] + replacement + str[k + |pattern|..]
  {
    assert IndexOf(str, pattern) == Some(k);
  }

  /** A prefix `pattern` is replaced at the front. */
  lemma ReplacePrefix(pattern: string, rest: string, replacement: string)
    requires '$' !in replacement
    ensures ReplaceFirst(pattern + rest, pattern, replacement) == replacement + rest
  {
    IndexOfPrefix(pattern, rest);
    assert (pattern + rest)[|pattern|..] == rest;
  }

  /**
   * `$&` in the replacement re-inserts the matched text: a replacement `$&<suffix>`
   * keeps the match and puts the suffix after it.
   */
  lemma DollarAmpersandKeepsMatch(pattern: string, rest: string, suffix: string)
    requires '$' !in suffix
    ensures ReplaceFirst(pattern + rest, pattern, "$&" + suffix) == pattern + suffix + rest
  {
    var s := pattern + rest;
    assert OccursAt(s, pattern, 0);
    SubstitutionMatch(s, 0, pattern, suffix);
    assert s[..0] == "" && s[|pattern|..] == rest;
  }
}

=== FILE: naming.dfy ===
/**
 * The minification decision and the output file name of one build
 * (`shouldMinify` and `outputName` in `createRollupConfig`).
 *
 * The file name is `<appDist>/<slug>` followed by the module format, the
 * environment when one is given, `min` when minifying, and `js`, with empty
 * segments dropped and the rest joined by `.`.
 */
module Naming {
  import opened Wrappers
  import opened Strings
  import opened Options

  /** The environment as an output-name segment: `undefined` becomes a dropped, falsy segment. */
  function EnvSegment(env: Option<Env>): string
  {
    match env
    case Some(e) => EnvName(e)
    case None => ""
  }

  /**
   * An explicit `minify` option wins; otherwise only a production build is minified.
   */
  function ShouldMinify(minify: Option<bool>, env: Option<Env>): (r: bool)
    ensures minify.Some? ==> r == minify.value
    ensures minify.None? ==> (r <==> env == Some(Production))
  {
    if minify.Some? then minify.value else env == Some(Production)
  }

  /** Leaving both `env` and `minify` unset never minifies, and so does a development build without override. */
  lemma NoMinifyByDefault(env: Option<Env>)
    requires env != Some(Production)
    ensures !ShouldMinify(None, env)
  {
  }

  /** The segments of the output name, before the falsy ones are dropped. */
  function OutputSegments(prefix: string, format: Format, env: Option<Env>, minify: bool): seq<string>
  {
    [prefix, FormatName(format), EnvSegment(env), if minify then "min" else "", "js"]
  }

  /**
   * `[prefix, format, env, min?, 'js'].filter(Boolean).join('.')`. An empty prefix is
   * dropped by the filter along with its dot; `OutputNameLayout` states the layout for
   * every other prefix.
   */
  function OutputName(prefix: string, format: Format, env: Option<Env>, minify: bool): (r: string)
    ensures prefix == "" ==> r == Suffix(format, env, minify)
  {
    EmptyPrefixName(format, env, minify);
    Join(Truthy(OutputSegments(prefix, format, env, minify)), '.')
  }

  /** The text after the environment: `.min.js` or `.js`. */
  function MinTail(minify: bool): string
  {
    (if minify then ".min" else "") + ".js"
  }

  /** The name after the format segment: optional environment, optional `min`, then `js`. */
  function Tail(env: Option<Env>, minify: bool): string
  {
    (if env.Some? then "." + EnvName(env.value) else "") + MinTail(minify)
  }

  /**
   * The part of the output name after `prefix + "."`, written out directly:
   * an independent reference for what `OutputName` produces.
   */
  function Suffix(format: Format, env: Option<Env>, minify: bool): string
  {
    FormatName(format) + Tail(env, minify)
  }

  /** The segments `filter(Boolean)` keeps after the environment: `min` if minifying, then `js`. */
  function MinJs(minify: bool): seq<string>
  {
    (if minify then ["min"] else []) + ["js"]
  }

  /** The segments `filter(Boolean)` keeps after the format: the environment if any, then `MinJs`. */
  function KeptAfterFormat(env: Option<Env>, minify: bool): seq<string>
  {
    (if env.Some? then [EnvName(env.value)] else []) + MinJs(minify)
  }

  lemma TruthyMinJs(minify: bool)
    ensures Truthy([if minify then "min" else "", "js"]) == MinJs(minify)
  {
    var ms := if minify then "min" else "";
    assert [ms, "js"] == [ms] + ["js"];
    TruthyCons(ms, ["js"]);
    TruthyCons("js", []);
  }

  lemma TruthyKept(env: Option<Env>, minify: bool)
    ensures Truthy([EnvSegment(env), if minify then "min" else "", "js"]) == KeptAfterFormat(env, minify)
  {
    var ms := if minify then "min" else "";
    assert [EnvSegment(env), ms, "js"] == [EnvSegment(env)] + [ms, "js"];
    TruthyCons(EnvSegment(env), [ms, "js"]);
    TruthyMinJs(minify);
  }

  /** `filter(Boolean)` drops exactly the unset environment and the unset `min` segment. */
  lemma TruthyOutputSegments(prefix: string, format: Format, env: Option<Env>, minify: bool)
    requires prefix != ""
    ensures Truthy(OutputSegments(prefix, format, env, minify))
      == [prefix] + ([FormatName(format)] + KeptAfterFormat(env, minify))
  {
    var f := FormatName(format);
    var tail := [EnvSegment(env), if minify then "min" else "", "js"];
    assert OutputSegments(prefix, format, env, minify) == [prefix] + ([f] + tail);
    TruthyCons(prefix, [f] + tail);
    TruthyCons(f, tail);
    TruthyKept(env, minify);
  }


  /** Joining `min` (if minifying) and `js`, behind a `.`, gives `MinTail`. */
  lemma JoinMinJs(minify: bool)
    ensures "." + Join(MinJs(minify), '.') == MinTail(minify)
  {
    if minify {
      assert MinJs(minify) == ["min"] + ["js"];
      JoinCons("min", ["js"], '.');
    } else {
      assert MinJs(minify) == ["js"];
    }
  }

  /** Joining the kept segments after the format spells out `Tail`. */
  lemma JoinKeptAfterFormat(f: string, env: Option<Env>, minify: bool)
    ensures Join([f] + KeptAfterFormat(env, minify), '.') == f + Tail(env, minify)
  {
    var mj := MinJs(minify);
    JoinMinJs(minify);
    if env.Some? {
      var e := EnvName(env.value);
      assert KeptAfterFormat(env, minify) == [e] + mj;
      JoinCons(e, mj, '.');
      JoinCons(f, [e] + mj, '.');
      assert Tail(env, minify) == "." + e + MinTail(minify);
    } else {
      assert KeptAfterFormat(env, minify) == mj;
      JoinCons(f, mj, '.');
    }
  }

  /** With an empty prefix, `filter(Boolean)` leaves the format first and the name is `Suffix`. */
  lemma EmptyPrefixName(format: Format, env: Option<Env>, minify: bool)
    ensures Join(Truthy(OutputSegments("", format, env, minify)), '.') == Suffix(format, env, minify)
  {
    var f := FormatName(format);
    var tail := [EnvSegment(env), if minify then "min" else "", "js"];
    assert OutputSegments("", format, env, minify) == [""] + ([f] + tail);
    TruthyCons("", [f] + tail);
    TruthyCons(f, tail);
    TruthyKept(env, minify);
    JoinKeptAfterFormat(f, env, minify);
  }

  /** The filtered-and-joined name has the layout `Suffix` spells out. */
  lemma OutputNameLayout(prefix: string, format: Format, env: Option<Env>, minify: bool)
    requires prefix != ""
    ensures OutputName(prefix, format, env, minify) == prefix + "." + Suffix(format, env, minify)
  {
    var f := FormatName(format);
    TruthyOutputSegments(prefix, format, env, minify);
    JoinCons(prefix, [f] + KeptAfterFormat(env, minify), '.');
    JoinKeptAfterFormat(f, env, minify);
  }

  /** Reads the format back from the first three characters of a suffix. */
  function ParseFormat(s: string): (r: Option<Format>)
    ensures r.Some? ==> FormatName(r.value) == s
  {
    if s == FormatName(Cjs) then Some(Cjs)
    else if s == FormatName(Umd) then Some(Umd)
    else if s == FormatName(Esm) then Some(Esm)
    else None
  }

  /** Reads the environment and minification back from a `Tail`. */
  function ParseTail(s: string): (r: Option<(Option<Env>, bool)>)
    ensures r.Some? ==> Tail(r.value.0, r.value.1) == s
  {
    if s == Tail(None, false) then Some((None, false))
    else if s == Tail(None, true) then Some((None, true))
    else if s == Tail(Some(Development), false) then Some((Some(Development), false))
    else if s == Tail(Some(Development), true) then Some((Some(Development), true))
    else if s == Tail(Some(Production), false) then Some((Some(Production), false))
    else if s == Tail(Some(Production), true) then Some((Some(Production), true))
    else None
  }

  /** Reads the (format, env, minify) triple back out of a name's `Suffix`. */
  function ParseSuffix(s: string): (r: Option<(Format, Option<Env>, bool)>)
    ensures r.Some? ==> Suffix(r.value.0, r.value.1, r.value.2) == s
  {
    if |s| < 3 then None
    else
      var format := ParseFormat(s[..3]);
      var tail := ParseTail(s[3..]);
      if format.None? || tail.None? then None
      else
        assert s == s[..3] + s[3..];
        Some((format.value, tail.value.0, tail.value.1))
  }

  /** Recovers the build coordinates from an output file name with the given prefix. */
  function ParseOutputName(prefix: string, name: string): (r: Option<(Format, Option<Env>, bool)>)
    requires prefix != ""
    ensures r.Some? ==> OutputName(prefix, r.value.0, r.value.1, r.value.2) == name
  {
    var lead := prefix + ".";
    if |name| < |lead| || name[..|lead|] != lead then None
    else
      var r := ParseSuffix(name[|lead|..]);
      if r.None? then None
      else
        OutputNameLayout(prefix, r.value.0, r.value.1, r.value.2);
        assert name == lead + name[|lead|..];
        r
  }

  /** The tails of the six (env, minify) pairs all have different lengths. */
  lemma TailLength(env: Option<Env>, minify: bool)
    ensures |Tail(env, minify)| ==
      (match env case None => 0 case Some(Development) => 12 case Some(Production) => 11)
      + (if minify then 4 else 0) + 3
  {
  }

  /** Parsing a generated name returns exactly the coordinates it was generated from. */
  lemma ParseOutputNameRoundTrip(prefix: string, format: Format, env: Option<Env>, minify: bool)
    requires prefix != ""
    ensures ParseOutputName(prefix, OutputName(prefix, format, env, minify)) == Some((format, env, minify))
  {
    OutputNameLayout(prefix, format, env, minify);
    var lead := prefix + ".";
    var name := OutputName(prefix, format, env, minify);
    var s := Suffix(format, env, minify);
    assert name[..|lead|] == lead;
    assert name[|lead|..] == s;
    assert s[..3] == FormatName(format);
    assert s[3..] == Tail(env, minify);
    assert ParseFormat(FormatName(format)) == Some(format);
    TailLength(None, false);
    TailLength(None, true);
    TailLength(Some(Development), false);
    TailLength(Some(Development), true);
    TailLength(Some(Production), false);
    TailLength(Some(Production), true);
    assert ParseTail(Tail(env, minify)) == Some((env, minify));
  }

  /** For a fixed package prefix, distinct (format, env, minify) triples never share an output file. */
  lemma OutputNameInjective(prefix: string, f1: Format, e1: Option<Env>, m1: bool, f2: Format, e2: Option<Env>, m2: bool)
    requires prefix != ""
    requires OutputName(prefix, f1, e1, m1) == OutputName(prefix, f2, e2, m2)
    ensures f1 == f2 && e1 == e2 && m1 == m2
  {
    ParseOutputNameRoundTrip(prefix, f1, e1, m1);
    ParseOutputNameRoundTrip(prefix, f2, e2, m2);
  }

  lemma DevelopmentSuffix()
    ensures Suffix(Cjs, Some(Development), false) == "cjs.development.js"
  {
  }

  lemma ProductionSuffix()
    ensures Suffix(Cjs, Some(Production), true) == "cjs.production.min.js"
  {
  }

  lemma EsmSuffix()
    ensures Suffix(Esm, None, false) == "esm.js"
  {
  }

  /** A development CommonJS build, minify unset, is named `<prefix>.cjs.development.js`. */
  lemma ExpectedCjsDevelopmentName(prefix: string)
    requires prefix != ""
    ensures OutputName(prefix, Cjs, Some(Development), ShouldMinify(None, Some(Development)))
      == prefix + ".cjs.development.js"
  {
    DevelopmentSuffix();
    OutputNameLayout(prefix, Cjs, Some(Development), false);
    assert prefix + "." + "cjs.development.js" == prefix + ".cjs.development.js";
  }

  /** A production CommonJS build, minify unset, is minified: `<prefix>.cjs.production.min.js`. */
  lemma ExpectedCjsProductionName(prefix: string)
    requires prefix != ""
    ensures OutputName(prefix, Cjs, Some(Production), ShouldMinify(None, Some(Production)))
      == prefix + ".cjs.production.min.js"
  {
    ProductionSuffix();
    OutputNameLayout(prefix, Cjs, Some(Production), true);
    assert prefix + "." + "cjs.production.min.js" == prefix + ".cjs.production.min.js";
  }

  /** An ES module build without an environment or minify option is `<prefix>.esm.js`. */
  lemma ExpectedEsmName(prefix: string)
    requires prefix != ""
    ensures OutputName(prefix, Esm, None, ShouldMinify(None, None)) == prefix + ".esm.js"
  {
    EsmSuffix();
    OutputNameLayout(prefix, Esm, None, false);
    assert prefix + "." + "esm.js" == prefix + ".esm.js";
  }
}

=== FILE: options.dfy ===
/** The build request `createRollupConfig` receives: the module format and the tsdx options. */
module Options {
  import opened Wrappers

  /** The module formats a build can emit. */
  datatype Format = Cjs | Umd | Esm

  /** The target environment; an `env` left `undefined` is `None` where it is used. */
  datatype Env = Development | Production

  /** The runtime the bundle targets. */
  datatype Target = Node | Browser

  /**
   * The options of one build. `env` is declared as required but may still be
   * `undefined` at run time, `tsconfig` and `minify` are optional, and
   * `extractErrors` is an optional string. The modelled code uses `extractErrors` only
   * for its truthiness; its value also goes, inside `opts`, to the error-code registry
   * factory, which is not part of this model.
   */
  datatype TsdxOptions = TsdxOptions(
    input: string,
    name: string,
    target: Target,
    env: Option<Env>,
    tsconfig: Option<string>,
    extractErrors: Option<string>,
    minify: Option<bool>)

  /** JavaScript truthiness of an optional string: present and not empty. */
  predicate IsTruthy(s: Option<string>)
  {
    s.Some? && s.value != ""
  }

  function FormatName(f: Format): string
  {
    match f
    case Cjs => "cjs"
    case Umd => "umd"
    case Esm => "esm"
  }

  function EnvName(e: Env): string
  {
    match e
    case Development => "development"
    case Production => "production"
  }
}

=== FILE: pipeline.dfy ===
/**
 * The plugin pipelines of one build: the Rollup plugin list of `createRollupConfig`
 * and the Babel plugin list of `babelOptions`. The Rollup array is returned with a `false`
 * in each switched-off slot (`RollupSlots`); the Babel array is filtered in place. Both
 * are also modelled as the plugins switched on, in source order; the options a plugin is
 * given are modelled by the settings functions below. What the plugins do is outside
 * this model.
 */
module Pipeline {
  import opened Wrappers
  import opened Strings
  import opened Options
  import opened Naming
  import opened Gated

  /** The Babel plugins, in the order the source lists them. */
  datatype BabelPlugin =
    | AnnotatePureCalls
    | DevExpression
    | RenameImport
    | AsyncToPromises
    | ClassProperties
    | TransformErrorMessages

  /** The Rollup plugins, in the order the source lists them. */
  datatype Plugin =
    | ErrorExtraction
    | NodeResolve
    | CommonJs
    | Json
    | ShebangStrip  // the inline shebang-stripping transform, modelled by `Shebang.Transform`
    | TypeScript
    | Babel
    | Replace
    | SourceMaps
    | Terser

  function BabelRank(p: BabelPlugin): int
  {
    match p
    case AnnotatePureCalls => 0
    case DevExpression => 1
    case RenameImport => 2
    case AsyncToPromises => 3
    case ClassProperties => 4
    case TransformErrorMessages => 5
  }

  function PluginRank(p: Plugin): int
  {
    match p
    case ErrorExtraction => 0
    case NodeResolve => 1
    case CommonJs => 2
    case Json => 3
    case ShebangStrip => 4
    case TypeScript => 5
    case Babel => 6
    case Replace => 7
    case SourceMaps => 8
    case Terser => 9
  }

  /** The `plugins` of `babelOptions(format, opts)`, after `filter(Boolean)`. */
  function BabelPlugins(format: Format, extractErrors: Option<string>): (r: seq<BabelPlugin>)
    ensures Increasing(r, BabelRank)
    ensures RenameImport in r <==> format != Cjs
    ensures TransformErrorMessages in r <==> IsTruthy(extractErrors)
    ensures AnnotatePureCalls in r && DevExpression in r && AsyncToPromises in r && ClassProperties in r
  {
    BabelOrdered(format != Cjs, IsTruthy(extractErrors));
    BabelList(format != Cjs, IsTruthy(extractErrors))
  }

  /** The Babel plugin array with its two gates set as given. */
  function BabelList(rename: bool, errors: bool): seq<BabelPlugin>
  {
    BabelFront(rename) + BabelBack(errors)
  }

  /** The plugins up to the import renaming. */
  function BabelFront(rename: bool): seq<BabelPlugin>
  {
    [AnnotatePureCalls, DevExpression] + Gate(rename, RenameImport)
  }

  /** The plugins from async-to-promises on. */
  function BabelBack(errors: bool): seq<BabelPlugin>
  {
    [AsyncToPromises, ClassProperties] + Gate(errors, TransformErrorMessages)
  }

  /** Whichever gates are on, the Babel plugins come in source order. */
  lemma BabelOrdered(rename: bool, errors: bool)
    ensures Increasing(BabelList(rename, errors), BabelRank)
  {
    var p1 := Gate(rename, RenameImport);
    var p3 := Gate(errors, TransformErrorMessages);
    Single(p1, BabelRank);
    Single(p3, BabelRank);
    Append([AnnotatePureCalls, DevExpression], p1, BabelRank, 0, 2, 3);
    Append([AsyncToPromises, ClassProperties], p3, BabelRank, 3, 5, 6);
    Append(BabelFront(rename), BabelBack(errors), BabelRank, 0, 3, 6);
  }

  /**
   * The `plugins` array of `createRollupConfig(format, opts)` as returned: ten slots in
   * source order, slot `i` holding the plugin of rank `i`. The array is not filtered, so a
   * switched-off plugin leaves its `false`, here `None`, in place.
   */
  function RollupSlots(format: Format, opts: TsdxOptions): (r: seq<Option<Plugin>>)
    ensures |r| == 10
    ensures forall i :: 0 <= i < |r| && r[i].Some? ==> PluginRank(r[i].value) == i
    ensures r[0].Some? <==> IsTruthy(opts.extractErrors)
    ensures r[2].Some? <==> format == Umd
    ensures r[7].Some? <==> opts.env.Some?
    ensures r[9].Some? <==> ShouldMinify(opts.minify, opts.env)
    ensures r[1].Some? && r[3].Some? && r[4].Some? && r[5].Some? && r[6].Some? && r[8].Some?
  {
    SlotsFront(IsTruthy(opts.extractErrors), format == Umd)
      + SlotsBack(opts.env.Some?, ShouldMinify(opts.minify, opts.env))
  }

  /** The first seven slots, up to and including Babel. */
  function SlotsFront(errors: bool, umd: bool): seq<Option<Plugin>>
  {
    [Slot(errors, ErrorExtraction)] + [Some(NodeResolve)] + [Slot(umd, CommonJs)]
      + [Some(Json), Some(ShebangStrip), Some(TypeScript), Some(Babel)]
  }

  /** The last three slots, after Babel. */
  function SlotsBack(env: bool, minify: bool): seq<Option<Plugin>>
  {
    [Slot(env, Replace)] + [Some(SourceMaps)] + [Slot(minify, Terser)]
  }

  /** Skipping the `false` slots of the returned array leaves exactly the plugins Rollup runs. */
  lemma RollupSlotsPresent(format: Format, opts: TsdxOptions)
    ensures Present(RollupSlots(format, opts)) == RollupPlugins(format, opts)
  {
    var errors := IsTruthy(opts.extractErrors);
    var minify := ShouldMinify(opts.minify, opts.env);
    FrontPresent(errors, format == Umd);
    BackPresent(opts.env.Some?, minify);
    PresentAppend(SlotsFront(errors, format == Umd), SlotsBack(opts.env.Some?, minify));
  }

  /** The front slots with `false` skipped are the front plugins. */
  lemma FrontPresent(errors: bool, umd: bool)
    ensures Present(SlotsFront(errors, umd)) == RollupFront(errors, umd)
  {
    var s0 := [Slot(errors, ErrorExtraction)];
    var s1: seq<Option<Plugin>> := [Some(NodeResolve)];
    var s2 := [Slot(umd, CommonJs)];
    var s3: seq<Option<Plugin>> := [Some(Json), Some(ShebangStrip), Some(TypeScript), Some(Babel)];
    PresentSlot(errors, ErrorExtraction);
    PresentSlot(umd, CommonJs);
    PresentSlot(true, NodeResolve);
    assert Present(s3) == [Json, ShebangStrip, TypeScript, Babel] by {
      assert s3[1..][1..][1..][1..] == [];
    }
    PresentAppend(s0, s1);
    PresentAppend(s0 + s1, s2);
    PresentAppend(s0 + s1 + s2, s3);
  }

  /** The back slots with `false` skipped are the back plugins. */
  lemma BackPresent(env: bool, minify: bool)
    ensures Present(SlotsBack(env, minify)) == RollupBack(env, minify)
  {
    var s4 := [Slot(env, Replace)];
    var s5: seq<Option<Plugin>> := [Some(SourceMaps)];
    var s6 := [Slot(minify, Terser)];
    PresentSlot(env, Replace);
    PresentSlot(true, SourceMaps);
    PresentSlot(minify, Terser);
    PresentAppend(s4, s5);
    PresentAppend(s4 + s5, s6);
  }

  /**
   * The plugins Rollup runs for `createRollupConfig(format, opts)`: the returned array
   * with its `false` slots skipped, as Rollup skips falsy entries of its `plugins` option.
   */
  function RollupPlugins(format: Format, opts: TsdxOptions): (r: seq<Plugin>)
    ensures Increasing(r, PluginRank)
    ensures ErrorExtraction in r <==> IsTruthy(opts.extractErrors)
    ensures CommonJs in r <==> format == Umd
    ensures Replace in r <==> opts.env.Some?
    ensures Terser in r <==> ShouldMinify(opts.minify, opts.env)
    ensures forall p :: p in [NodeResolve, Json, ShebangStrip, TypeScript, Babel, SourceMaps] ==> p in r
  {
    var errors := IsTruthy(opts.extractErrors);
    var minify := ShouldMinify(opts.minify, opts.env);
    RollupOrdered(errors, format == Umd, opts.env.Some?, minify);
    RollupList(errors, format == Umd, opts.env.Some?, minify)
  }

  /** The Rollup plugin array with its four gates set as given. */
  function RollupList(errors: bool, umd: bool, env: bool, minify: bool): seq<Plugin>
  {
    RollupFront(errors, umd) + RollupBack(env, minify)
  }

  /** The plugins up to and including Babel, which turn sources into JavaScript. */
  function RollupFront(errors: bool, umd: bool): seq<Plugin>
  {
    Gate(errors, ErrorExtraction) + [NodeResolve] + Gate(umd, CommonJs) + [Json, ShebangStrip, TypeScript, Babel]
  }

  /** The plugins after Babel, which work on the compiled bundle. */
  function RollupBack(env: bool, minify: bool): seq<Plugin>
  {
    Gate(env, Replace) + [SourceMaps] + Gate(minify, Terser)
  }

  /** Whichever gates are on, the Rollup plugins come in source order. */
  lemma RollupOrdered(errors: bool, umd: bool, env: bool, minify: bool)
    ensures Increasing(RollupList(errors, umd, env, minify), PluginRank)
  {
    FrontOrdered(errors, umd);
    BackOrdered(env, minify);
    Append(RollupFront(errors, umd), RollupBack(env, minify), PluginRank, 0, 7, 10);
  }

  /** The plugins up to Babel are in source order and rank below 7. */
  lemma FrontOrdered(errors: bool, umd: bool)
    ensures Increasing(RollupFront(errors, umd), PluginRank) && Within(RollupFront(errors, umd), PluginRank, 0, 7)
  {
    var p0 := Gate(errors, ErrorExtraction);
    var p1 := [NodeResolve];
    var p2 := Gate(umd, CommonJs);
    var p3 := [Json, ShebangStrip, TypeScript, Babel];
    Single(p0, PluginRank);
    Single(p1, PluginRank);
    Single(p2, PluginRank);
    Append(p0, p1, PluginRank, 0, 1, 2);
    Append(p0 + p1, p2, PluginRank, 0, 2, 3);
    Append(p0 + p1 + p2, p3, PluginRank, 0, 3, 7);
  }

  /** The plugins after Babel are in source order and rank from 7 up. */
  lemma BackOrdered(env: bool, minify: bool)
    ensures Increasing(RollupBack(env, minify), PluginRank) && Within(RollupBack(env, minify), PluginRank, 7, 10)
  {
    var p4 := Gate(env, Replace);
    var p5 := [SourceMaps];
    var p6 := Gate(minify, Terser);
    Single(p4, PluginRank);
    Single(p5, PluginRank);
    Single(p6, PluginRank);
    Append(p4, p5, PluginRank, 7, 8, 9);
    Append(p4 + p5, p6, PluginRank, 7, 9, 10);
  }

  /** `preset-env`'s `targets`: `{ node: '8' }` for a node build, otherwise left undefined. */
  function NodeTarget(target: Target): (r: Option<string>)
    ensures r.Some? <==> target == Node
    ensures r.Some? ==> r.value == "8"
  {
    if target == Node then Some("8") else None
  }

  /**
   * The parts of `babelOptions(format, opts)` that vary: the node target of `preset-env`
   * and the plugin list. The rename list, the async-to-promises helpers and loose class
   * properties are fixed and travel with the plugin tags.
   */
  datatype BabelOptions = BabelOptions(nodeTarget: Option<string>, plugins: seq<BabelPlugin>)

  /** `babelOptions(format, opts)`. */
  function BabelOptionsFor(format: Format, opts: TsdxOptions): (r: BabelOptions)
    ensures r.nodeTarget == NodeTarget(opts.target)
    ensures r.plugins == BabelPlugins(format, opts.extractErrors)
    ensures Increasing(r.plugins, BabelRank)
    ensures RenameImport in r.plugins <==> format != Cjs
    ensures TransformErrorMessages in r.plugins <==> IsTruthy(opts.extractErrors)
    ensures AnnotatePureCalls in r.plugins && DevExpression in r.plugins
    ensures AsyncToPromises in r.plugins && ClassProperties in r.plugins
  {
    BabelOptions(NodeTarget(opts.target), BabelPlugins(format, opts.extractErrors))
  }

  /** `['module', 'main', target !== 'node' ? 'browser' : undefined].filter(Boolean)`. */
  function MainFields(target: Target): (r: seq<string>)
    ensures |r| >= 2 && r[0] == "module" && r[1] == "main"
    ensures "browser" in r <==> target != Node
    ensures |r| == (if target == Node then 2 else 3)
  {
    var fields := ["module", "main", if target != Node then "browser" else ""];
    TruthyCons("module", ["main", fields[2]]);
    TruthyCons("main", [fields[2]]);
    TruthyCons(fields[2], []);
    assert fields == ["module"] + (["main"] + ([fields[2]] + []));
    Truthy(fields)
  }

  /** The fixed start of every TypeScript cache directory. */
  const CachePrefix := "./.rts2_cache_"

  /** The TypeScript plugin's cache directory, one per format: `./.rts2_cache_${format}`. */
  function CacheRoot(format: Format): (r: string)
    ensures CachePrefix <= r && r[|CachePrefix|..] == FormatName(format)
  {
    CachePrefix + FormatName(format)
  }

  /** Builds for different formats never share a TypeScript cache directory. */
  lemma CacheRootsDistinct(f1: Format, f2: Format)
    requires f1 != f2
    ensures CacheRoot(f1) != CacheRoot(f2)
  {
    var n := |CachePrefix|;
    assert CacheRoot(f1)[n..] == FormatName(f1);
    assert CacheRoot(f2)[n..] == FormatName(f2);
  }

  /** `JSON.stringify(env)`, the text `process.env.NODE_ENV` is replaced with. */
  function EnvLiteral(e: Env): (r: string)
    ensures |r| >= 2 && r[0] == '"' && r[|r| - 1] == '"' && r[1..|r| - 1] == EnvName(e)
  {
    "\"" + EnvName(e) + "\""
  }

  /**
   * The options the configured Rollup plugins are given, those that depend on the build.
   * `shebangKey` is the key under which the inline `ShebangStrip` plugin records a shebang:
   * Rollup calls that plugin's `transform(code)` once per module, and each call is
   * `Shebang.Transform(cache, shebangKey, code)`, overwriting the entry the previous module left.
   */
  datatype Settings = Settings(
    mainFields: seq<string>,
    shebangKey: string,
    cacheRoot: string,
    tsconfig: Option<string>,
    babel: BabelOptions,
    nodeEnv: Option<string>,
    terserToplevel: bool)

  /** The per-build options of the plugins of `createRollupConfig(format, opts)`. */
  function SettingsFor(format: Format, opts: TsdxOptions): (r: Settings)
    ensures r.mainFields == MainFields(opts.target)
    ensures "browser" in r.mainFields <==> opts.target != Node
    ensures r.shebangKey == opts.name
    ensures r.cacheRoot == CacheRoot(format)
    ensures r.babel == BabelOptionsFor(format, opts)
    ensures opts.env.Some? ==> r.nodeEnv == Some(EnvLiteral(opts.env.value))
    ensures r.tsconfig == opts.tsconfig
    ensures r.nodeEnv.Some? <==> opts.env.Some?
    ensures r.terserToplevel <==> format == Cjs
  {
    Settings(
      MainFields(opts.target),
      opts.name,
      CacheRoot(format),
      opts.tsconfig,
      BabelOptionsFor(format, opts),
      match opts.env case Some(e) => Some(EnvLiteral(e)) case None => None,
      format == Cjs)
  }
}

=== FILE: posixpath.dfy ===
/**
 * POSIX `path.resolve(base, p)` for an absolute base, as pure string manipulation:
 * the two paths are joined with `/` (or `p` alone is taken when it is absolute), split
 * into segments, and normalised by dropping empty and `.` segments and letting `..`
 * remove the segment before it (at the root it is dropped). The result is `/` followed
 * by the remaining segments joined with `/`.
 */
module PosixPath {
  import opened Strings

  predicate IsAbsolute(p: string)
  {
    |p| > 0 && p[0] == '/'
  }

  /** A segment that normalisation keeps as it is. */
  predicate Ordinary(seg: string)
  {
    seg != "" && seg != "." && seg != ".." && '/' !in seg
  }

  predicate AllOrdinary(segs: seq<string>)
  {
    forall i :: 0 <= i < |segs| ==> Ordinary(segs[i])
  }

  /** One normalisation step on the stack of segments kept so far. */
  function Step(stack: seq<string>, seg: string): seq<string>
  {
    if seg == "" || seg == "." then stack
    else if seg == ".." then (if |stack| > 0 then stack[..|stack| - 1] else stack)
    else stack + [seg]
  }

  /** Applies `Step` to each segment from left to right. */
  function Fold(stack: seq<string>, segs: seq<string>): (r: seq<string>)
    ensures forall x :: x in r ==> x in stack || (x in segs && x != "" && x != "." && x != "..")
    decreases |segs|
  {
    if |segs| == 0 then stack
    else
      var next := Step(stack, segs[0]);
      assert forall x :: x in next ==> x in stack || x == segs[0];
      Fold(next, segs[1..])
  }

  /** Folding a concatenation folds the two halves one after the other. */
  lemma {:induction false} FoldAppend(stack: seq<string>, a: seq<string>, b: seq<string>)
    ensures Fold(stack, a + b) == Fold(Fold(stack, a), b)
    decreases |a|
  {
    if |a| > 0 {
      assert (a + b)[0] == a[0];
      assert (a + b)[1..] == a[1..] + b;
      FoldAppend(Step(stack, a[0]), a[1..], b);
    } else {
      assert a + b == b;
    }
  }

  /** Ordinary segments are pushed unchanged. */
  lemma {:induction false} FoldOrdinary(stack: seq<string>, segs: seq<string>)
    requires AllOrdinary(segs)
    ensures Fold(stack, segs) == stack + segs
    decreases |segs|
  {
    if |segs| > 0 {
      assert Ordinary(segs[0]);
      FoldOrdinary(stack + [segs[0]], segs[1..]);
      assert stack + [segs[0]] + segs[1..] == stack + segs;
    }
  }

  /** The segments of a normalised path. */
  function Segments(p: string): (r: seq<string>)
    ensures AllOrdinary(r)
  {
    var parts := Split(p, '/');
    JoinSplit(p, '/');
    var r := Fold([], parts);
    assert forall i :: 0 <= i < |r| ==> Ordinary(r[i]) by {
      forall i | 0 <= i < |r|
        ensures Ordinary(r[i])
      {
        assert r[i] in parts;
        var j :| 0 <= j < |parts| && parts[j] == r[i];
      }
    }
    r
  }

  /** The absolute path with the given segments. */
  function FromSegments(segs: seq<string>): string
  {
    "/" + Join(segs, '/')
  }

  /** Normalises `p` as a path rooted at `/`. */
  function Normalize(p: string): (r: string)
    ensures IsAbsolute(r)
  {
    FromSegments(Segments(p))
  }

  /** `path.resolve(base, p)`: `p` alone when absolute, else `p` taken relative to `base`. */
  function Resolve(base: string, p: string): (r: string)
    ensures IsAbsolute(r)
  {
    if IsAbsolute(p) then Normalize(p) else Normalize(base + "/" + p)
  }

  /** A path built from ordinary segments splits back into those segments. */
  lemma SegmentsFromSegments(segs: seq<string>)
    requires AllOrdinary(segs)
    ensures Segments(FromSegments(segs)) == segs
  {
    if |segs| == 0 {
      assert Split("/", '/') == ["", ""];
      assert Fold([], ["", ""]) == [];
    } else {
      assert FromSegments(segs) == Join([""] + segs, '/') by {
        assert ([""] + segs)[1..] == segs;
      }
      assert FreeOf([""] + segs, '/') by {
        forall i | 0 <= i < |[""] + segs|
          ensures '/' !in ([""] + segs)[i]
        {
          if i > 0 { assert ([""] + segs)[i] == segs[i - 1]; }
        }
      }
      SplitJoin([""] + segs, '/');
      FoldAppend([], [""], segs);
      FoldOrdinary([], segs);
    }
  }

  /** Normalising a normalised path changes nothing. */
  lemma NormalizeIdempotent(p: string)
    ensures Normalize(Normalize(p)) == Normalize(p)
  {
    SegmentsFromSegments(Segments(p));
  }

  /** Two paths built from ordinary segments are joined by one `/`. */
  lemma FromSegmentsAppend(a: seq<string>, b: seq<string>)
    requires |a| >= 1 && |b| >= 1
    ensures FromSegments(a + b) == FromSegments(a) + "/" + Join(b, '/')
  {
    JoinAppend(a, b, '/');
    Rooted(Join(a + b, '/'), Join(a, '/'), Join(b, '/'));
  }

  /** Putting `/` in front of `x + "/" + y` is the same as putting it in front of `x`. */
  lemma Rooted(xy: string, x: string, y: string)
    requires xy == x + "/" + y
    ensures "/" + xy == "/" + x + "/" + y
  {
  }

  /**
   * How `path.resolve` combines its arguments: an absolute `p` is normalised on its own;
   * a relative `p` has its `/`-separated pieces applied, left to right, on top of the
   * segments of the base.
   */
  lemma ResolveSegments(baseSegs: seq<string>, p: string)
    requires AllOrdinary(baseSegs)
    ensures Segments(Resolve(FromSegments(baseSegs), p))
      == if IsAbsolute(p) then Fold([], Split(p, '/')) else Fold(baseSegs, Split(p, '/'))
  {
    if IsAbsolute(p) {
      SegmentsFromSegments(Segments(p));
    } else {
      var joined := FromSegments(baseSegs) + "/" + p;
      var parts := Split(p, '/');
      JoinSplit(p, '/');
      var lead := if |baseSegs| == 0 then ["", ""] else [""] + baseSegs;
      assert Join(lead, '/') == FromSegments(baseSegs) by {
        if |baseSegs| > 0 { JoinRooted(baseSegs); }
      }
      JoinAppend(lead, parts, '/');
      assert Join(lead + parts, '/') == joined;
      assert FreeOf(lead + parts, '/') by {
        forall i | 0 <= i < |lead + parts|
          ensures '/' !in (lead + parts)[i]
        {
          if i >= |lead| {
            assert (lead + parts)[i] == parts[i - |lead|];
          } else if |baseSegs| > 0 && i > 0 {
            assert (lead + parts)[i] == baseSegs[i - 1];
            assert Ordinary(baseSegs[i - 1]);
          }
        }
      }
      SplitJoin(lead + parts, '/');
      FoldAppend([], lead, parts);
      assert Fold([], lead) == baseSegs by {
        if |baseSegs| == 0 {
          assert Fold([], ["", ""]) == [];
        } else {
          FoldAppend([], [""], baseSegs);
          assert Fold([], [""]) == [];
          FoldOrdinary([], baseSegs);
        }
      }
      assert Segments(joined) == Fold(baseSegs, parts);
      SegmentsFromSegments(Segments(joined));
    }
  }

  /** The segments of `<root>/dist/../<rel>`, before normalisation. */
  function DistSiblingSegments(rootSegs: seq<string>, relSegs: seq<string>): seq<string>
  {
    ([""] + rootSegs) + (["dist", ".."] + relSegs)
  }

  lemma DistSiblingJoin(rootSegs: seq<string>, relSegs: seq<string>)
    requires |rootSegs| >= 1 && |relSegs| >= 1
    ensures FromSegments(rootSegs) + "/dist" + "/" + ("../" + Join(relSegs, '/'))
      == Join(DistSiblingSegments(rootSegs, relSegs), '/')
  {
    var root := FromSegments(rootSegs);
    var rel := Join(relSegs, '/');
    JoinDistUp(relSegs);
    JoinRooted(rootSegs);
    JoinAppend([""] + rootSegs, ["dist", ".."] + relSegs, '/');
    DistLiteral(root, rel);
  }

  /** An absolute path is the join of its segments behind an empty first segment. */
  lemma JoinRooted(segs: seq<string>)
    requires |segs| >= 1
    ensures Join([""] + segs, '/') == FromSegments(segs)
  {
    assert ([""] + segs)[1..] == segs;
  }

  lemma JoinDistUp(relSegs: seq<string>)
    requires |relSegs| >= 1
    ensures Join(["dist", ".."] + relSegs, '/') == "dist/.." + "/" + Join(relSegs, '/')
  {
    JoinAppend(["dist", ".."], relSegs, '/');
    assert Join(["dist", ".."], '/') == "dist/..";
  }

  lemma DistLiteral(root: string, rel: string)
    ensures root + "/" + ("dist/.." + "/" + rel) == root + "/dist" + "/" + ("../" + rel)
  {
    var x := "/dist/../";
    assert "/" + ("dist/.." + "/" + rel) == x + rel;
    assert "/dist" + "/" + ("../" + rel) == x + rel;
  }

  lemma DistSiblingFreeOf(rootSegs: seq<string>, relSegs: seq<string>)
    requires AllOrdinary(rootSegs) && AllOrdinary(relSegs)
    ensures FreeOf(DistSiblingSegments(rootSegs, relSegs), '/')
  {
    var all := DistSiblingSegments(rootSegs, relSegs);
    forall i | 0 <= i < |all|
      ensures '/' !in all[i]
    {
      if 1 <= i <= |rootSegs| {
        assert all[i] == rootSegs[i - 1];
      } else if i > |rootSegs| + 2 {
        assert all[i] == relSegs[i - |rootSegs| - 3];
      }
    }
  }

  lemma DistSiblingFold(rootSegs: seq<string>, relSegs: seq<string>)
    requires AllOrdinary(rootSegs) && AllOrdinary(relSegs)
    ensures Fold([], DistSiblingSegments(rootSegs, relSegs)) == rootSegs + relSegs
  {
    FoldAppend([], [""] + rootSegs, ["dist", ".."] + relSegs);
    FoldAppend([], [""], rootSegs);
    assert Fold([], [""]) == [];
    FoldOrdinary([], rootSegs);
    assert Fold([], [""] + rootSegs) == rootSegs;
    FoldAppend(rootSegs, ["dist", ".."], relSegs);
    assert Fold(rootSegs, ["dist", ".."]) == rootSegs by {
      assert Step(rootSegs, "dist") == rootSegs + ["dist"];
      assert Step(rootSegs + ["dist"], "..") == rootSegs;
      assert ["dist", ".."][1..] == [".."];
    }
    FoldOrdinary(rootSegs, relSegs);
  }

  /**
   * A source path `../<rel>` seen from `<root>/dist` resolves to `<root>/<rel>` when
   * the root and `rel` are made of ordinary segments.
   */
  lemma ResolveFromDist(rootSegs: seq<string>, relSegs: seq<string>)
    requires |rootSegs| >= 1 && |relSegs| >= 1
    requires AllOrdinary(rootSegs) && AllOrdinary(relSegs)
    ensures Resolve(FromSegments(rootSegs) + "/dist", "../" + Join(relSegs, '/'))
      == FromSegments(rootSegs) + ("/" + Join(relSegs, '/'))
  {
    var rel := Join(relSegs, '/');
    var joined := FromSegments(rootSegs) + "/dist" + "/" + ("../" + rel);
    assert !IsAbsolute("../" + rel);
    DistSiblingJoin(rootSegs, relSegs);
    DistSiblingFreeOf(rootSegs, relSegs);
    SplitJoin(DistSiblingSegments(rootSegs, relSegs), '/');
    DistSiblingFold(rootSegs, relSegs);
    assert Segments(joined) == rootSegs + relSegs;
    FromSegmentsAppend(rootSegs, relSegs);
  }
}

=== FILE: shebang.dfy ===
/**
 * The shebang-stripping transform of the plugin pipeline. It matches `/^#!(.*)/` (no
 * multiline flag), records `'#!' + capture` (or `''` when there is no match) in a
 * cache keyed by package name, removes the match from the code, and returns no
 * source map.
 *
 * The cache is a single module-level object in the source; here it is passed in and
 * returned explicitly.
 */
module Shebang {

  /** Package name to the shebang line captured from its entry code. */
  type Cache = map<string, string>

  /** What the transform hands back to the bundler: the new code, and `hasMap == false` for its `map: null`. */
  datatype TransformOutput = TransformOutput(code: string, hasMap: bool)

  /** The characters a JavaScript `.` does not match: LF, CR, LINE SEPARATOR, PARAGRAPH SEPARATOR. */
  predicate IsLineTerminator(c: char)
  {
    c == '\n' || c == '\r' || c == '\U{2028}' || c == '\U{2029}'
  }

  /** The code begins with the two characters `#!`. */
  predicate StartsWithHashBang(code: string)
  {
    |code| >= 2 && code[0] == '#' && code[1] == '!'
  }

  /** Index of the first line terminator at or after `i`, or `|s|` when there is none. */
  function LineEnd(s: string, i: nat): (r: nat)
    requires i <= |s|
    ensures i <= r <= |s|
    ensures forall k :: i <= k < r ==> !IsLineTerminator(s[k])
    ensures r < |s| ==> IsLineTerminator(s[r])
    decreases |s| - i
  {
    if i == |s| || IsLineTerminator(s[i]) then i
    else LineEnd(s, i + 1)
  }

  /**
   * The result of matching `/^#!(.*)/` against `code` and replacing the match by `''`:
   * `line` is the matched text (`'#!' + match[1]`, or `''` when nothing matched) and
   * `rest` is the code that remains.
   */
  datatype Stripped = Stripped(line: string, rest: string)

  function Strip(code: string): (r: Stripped)
    ensures !StartsWithHashBang(code) ==> r.line == "" && r.rest == code
    ensures StartsWithHashBang(code) ==>
      && code == r.line + r.rest
      && StartsWithHashBang(r.line)
      && (forall k :: 0 <= k < |r.line| ==> !IsLineTerminator(r.line[k]))
      && (r.rest == "" || IsLineTerminator(r.rest[0]))
  {
    if StartsWithHashBang(code) then
      var e := LineEnd(code, 2);
      assert code == code[..e] + code[e..];
      Stripped(code[..e], code[e..])
    else
      Stripped("", code)
  }

  /** A split into a `#!` line without terminators and a rest that starts at a terminator is unique. */
  lemma StripUnique(code: string, line: string, rest: string)
    requires code == line + rest
    requires StartsWithHashBang(line)
    requires forall k :: 0 <= k < |line| ==> !IsLineTerminator(line[k])
    requires rest == "" || IsLineTerminator(rest[0])
    ensures Strip(code) == Stripped(line, rest)
  {
    assert StartsWithHashBang(code) by {
      assert code[0] == line[0] && code[1] == line[1];
    }
    var e := LineEnd(code, 2);
    forall k | 2 <= k < |line|
      ensures !IsLineTerminator(code[k])
    {
      assert code[k] == line[k];
    }
    if rest != "" {
      assert code[|line|] == rest[0];
    }
    assert e == |line|;
  }

  /** Stripping the stripped code again changes nothing: what is left never starts with `#!`. */
  lemma StripIdempotent(code: string)
    ensures !StartsWithHashBang(Strip(code).rest)
    ensures Strip(Strip(code).rest) == Stripped("", Strip(code).rest)
  {
  }

  /**
   * The transform: strips the shebang line of `code` and records it for package `name`.
   * Returns the transform output and the updated cache.
   */
  function Transform(cache: Cache, name: string, code: string): (r: (TransformOutput, Cache))
    ensures r.0.code == Strip(code).rest && !r.0.hasMap
    ensures r.1.Keys == cache.Keys + {name}
    ensures r.1[name] == Strip(code).line
    ensures forall k :: k in cache && k != name ==> r.1[k] == cache[k]
  {
    var s := Strip(code);
    (TransformOutput(s.rest, false), cache[name := s.line])
  }

  /** Code without a leading `#!` passes through unchanged and records an empty shebang. */
  lemma TransformWithoutShebang(cache: Cache, name: string, code: string)
    requires !StartsWithHashBang(code)
    ensures Transform(cache, name, code).0.code == code
    ensures Transform(cache, name, code).1 == cache[name := ""]
  {
  }

  /** With a leading `#!`, the recorded line followed by the new code is the old code. */
  lemma TransformRecordsRemovedLine(cache: Cache, name: string, code: string)
    requires StartsWithHashBang(code)
    ensures Transform(cache, name, code).1[name] + Transform(cache, name, code).0.code == code
    ensures StartsWithHashBang(Transform(cache, name, code).1[name])
  {
  }

  /** The line `#!/usr/bin/env node` is stripped up to, not including, its newline. */
  lemma NodeShebangExample(cache: Cache)
    ensures Transform(cache, "cli", "#!/usr/bin/env node\nmain();").0.code == "\nmain();"
    ensures Transform(cache, "cli", "#!/usr/bin/env node\nmain();").1["cli"] == "#!/usr/bin/env node"
  {
    StripUnique("#!/usr/bin/env node\nmain();", "#!/usr/bin/env node", "\nmain();");
  }
}

=== FILE: sourcemaps.dfy ===
/**
 * The `sourcemapPathTransform` of the output options: a source path relative to the
 * dist directory is resolved against it, then the first occurrence of the app-root
 * text is replaced by the package name, so that the map reads `<name>/src/...`.
 */
module SourceMaps {
  import opened Strings
  import opened PosixPath
  import opened JsReplace

  /** `path.resolve(appDist, sourcePath).replace(appRoot, name)`. */
  function RewriteSourcePath(appRoot: string, appDist: string, name: string, sourcePath: string): (r: string)
    ensures (forall k :: !OccursAt(Resolve(appDist, sourcePath), appRoot, k)) ==> r == Resolve(appDist, sourcePath)
    ensures forall k: nat ::
      (OccursAt(Resolve(appDist, sourcePath), appRoot, k)
       && forall j :: 0 <= j < k ==> !OccursAt(Resolve(appDist, sourcePath), appRoot, j))
      ==> r == Resolve(appDist, sourcePath)[..k] + Substitution(Resolve(appDist, sourcePath), k, appRoot, name)
               + Resolve(appDist, sourcePath)[k + |appRoot|..]
  {
    ReplaceFirst(Resolve(appDist, sourcePath), appRoot, name)
  }

  /**
   * A file under the app root, seen from `<root>/dist` as `../<rel>`, is reported as
   * `<name>/<rel>`.
   */
  lemma RewriteUnderRoot(rootSegs: seq<string>, relSegs: seq<string>, name: string)
    requires |rootSegs| >= 1 && |relSegs| >= 1
    requires AllOrdinary(rootSegs) && AllOrdinary(relSegs)
    requires '$' !in name
    ensures RewriteSourcePath(FromSegments(rootSegs), FromSegments(rootSegs) + "/dist", name, "../" + Join(relSegs, '/'))
      == name + ("/" + Join(relSegs, '/'))
  {
    ResolveFromDist(rootSegs, relSegs);
    RewriteResolvedPrefix(FromSegments(rootSegs), FromSegments(rootSegs) + "/dist", name,
                          "../" + Join(relSegs, '/'), "/" + Join(relSegs, '/'));
  }

  /**
   * Two files of one package keep the `<name>/` prefix and stay apart: their rewritten
   * paths are equal only when their relative paths are.
   */
  lemma RewriteKeepsFilesApart(rootSegs: seq<string>, rel1: seq<string>, rel2: seq<string>, name: string)
    requires |rootSegs| >= 1 && |rel1| >= 1 && |rel2| >= 1
    requires AllOrdinary(rootSegs) && AllOrdinary(rel1) && AllOrdinary(rel2)
    requires '$' !in name
    requires Join(rel1, '/') != Join(rel2, '/')
    ensures RewriteSourcePath(FromSegments(rootSegs), FromSegments(rootSegs) + "/dist", name, "../" + Join(rel1, '/'))
      != RewriteSourcePath(FromSegments(rootSegs), FromSegments(rootSegs) + "/dist", name, "../" + Join(rel2, '/'))
  {
    RewriteUnderRoot(rootSegs, rel1, name);
    RewriteUnderRoot(rootSegs, rel2, name);
    PrefixedApart(name, Join(rel1, '/'), Join(rel2, '/'));
  }

  /** Putting the same `<name>/` in front of two different paths keeps them different. */
  lemma PrefixedApart(name: string, a: string, b: string)
    requires a != b
    ensures name + ("/" + a) != name + ("/" + b)
  {
    var p := |name| + 1;
    assert (name + ("/" + a))[p..] == a;
    assert (name + ("/" + b))[p..] == b;
  }

  /**
   * The substitution is textual: whenever the resolved path begins with the app-root
   * text, that text is replaced, even when it does not end at a `/`.
   */
  lemma RewriteResolvedPrefix(appRoot: string, appDist: string, name: string, sourcePath: string, rest: string)
    requires Resolve(appDist, sourcePath) == appRoot + rest
    requires '$' !in name
    ensures RewriteSourcePath(appRoot, appDist, name, sourcePath) == name + rest
  {
    ReplacePrefix(appRoot, rest, name);
  }

  /**
   * The root text is looked for anywhere in the resolved path, not only at its start:
   * its first occurrence is replaced by the package name, wherever it sits.
   */
  lemma RewriteFirstOccurrence(appRoot: string, appDist: string, name: string, sourcePath: string,
                               before: string, after: string)
    requires Resolve(appDist, sourcePath) == before + appRoot + after
    requires forall j :: 0 <= j < |before| ==> !OccursAt(before + appRoot + after, appRoot, j)
    requires '$' !in name
    ensures RewriteSourcePath(appRoot, appDist, name, sourcePath) == before + name + after
  {
    var s := before + appRoot + after;
    assert s[|before|..|before| + |appRoot|] == appRoot;
    assert s[..|before|] == before;
    assert s[|before| + |appRoot|..] == after;
    ReplaceFirstAt(s, appRoot, name, |before|);
  }

  /** `src/foo.ts` is made of the ordinary segments `src` and `foo.ts`. */
  lemma SrcFooSegments()
    ensures AllOrdinary(["src", "foo.ts"]) && Join(["src", "foo.ts"], '/') == "src/foo.ts"
  {
    assert Ordinary("src") && Ordinary("foo.ts");
  }

  /**
   * The `build-default` fixture: its `../src/foo.ts`, seen from `<root>/dist`, is listed
   * as `<name>/src/foo.ts`, wherever the project root is.
   */
  lemma BuildDefaultSourceExample(rootSegs: seq<string>, name: string)
    requires |rootSegs| >= 1 && AllOrdinary(rootSegs)
    requires '$' !in name
    ensures RewriteSourcePath(FromSegments(rootSegs), FromSegments(rootSegs) + "/dist", name, "../src/foo.ts")
      == name + "/src/foo.ts"
  {
    SrcFooSegments();
    assert "../" + "src/foo.ts" == "../src/foo.ts" && "/" + "src/foo.ts" == "/src/foo.ts";
    RewriteUnderRoot(rootSegs, ["src", "foo.ts"], name);
  }

  /**
   * The substitution is textual: a source path that is already absolute and normalised
   * and whose text begins with the app root is rewritten, even when the root text does
   * not end at a `/` there.
   */
  lemma RewriteNormalisedSource(appRoot: string, appDist: string, name: string, segs: seq<string>, rest: string)
    requires AllOrdinary(segs) && FromSegments(segs) == appRoot + rest
    requires '$' !in name
    ensures RewriteSourcePath(appRoot, appDist, name, appRoot + rest) == name + rest
  {
    assert IsAbsolute(FromSegments(segs));
    SegmentsFromSegments(segs);
    RewriteResolvedPrefix(appRoot, appDist, name, appRoot + rest, rest);
  }

  /** Extending the last segment of an absolute path extends its text by the same characters. */
  lemma FromSegmentsExtendLast(segs: seq<string>, last: string, ext: string)
    ensures FromSegments(segs + [last + ext]) == FromSegments(segs + [last]) + ext
  {
    if |segs| == 0 {
      assert [] + [last + ext] == [last + ext] && [] + [last] == [last];
    } else {
      JoinAppend(segs, [last + ext], '/');
      JoinAppend(segs, [last], '/');
    }
  }

  /** The text of a path into the sibling directory: the root text, the extension, then the rest. */
  lemma SiblingText(parentSegs: seq<string>, last: string, ext: string, relSegs: seq<string>)
    requires |relSegs| >= 1
    ensures FromSegments(parentSegs + [last + ext] + relSegs)
      == FromSegments(parentSegs + [last]) + (ext + "/" + Join(relSegs, '/'))
  {
    var extended := parentSegs + [last + ext];
    FromSegmentsAppend(extended, relSegs);
    FromSegmentsExtendLast(parentSegs, last, ext);
    Regroup(FromSegments(parentSegs + [last]), ext, "/", Join(relSegs, '/'));
  }

  /** Concatenation regrouped: the three trailing pieces form one suffix. */
  lemma Regroup(a: string, b: string, c: string, d: string)
    ensures a + b + c + d == a + (b + c + d)
  {
  }

  /** The segments of a path into the sibling directory are all ordinary. */
  lemma SiblingOrdinary(parentSegs: seq<string>, seg: string, relSegs: seq<string>)
    requires AllOrdinary(parentSegs) && Ordinary(seg) && AllOrdinary(relSegs)
    ensures AllOrdinary(parentSegs + [seg] + relSegs)
  {
    var segs := parentSegs + [seg] + relSegs;
    forall i | 0 <= i < |segs|
      ensures Ordinary(segs[i])
    {
      if i < |parentSegs| {
        assert segs[i] == parentSegs[i];
      } else if i > |parentSegs| {
        assert segs[i] == relSegs[i - |parentSegs| - 1];
      }
    }
  }

  /**
   * A sibling directory whose name extends the root's last segment is rewritten too:
   * for a package rooted at `/w/pkg`, `/w/pkg-utils/a.ts` becomes `<name>-utils/a.ts`.
   */
  lemma SiblingDirectoryRewritten(parentSegs: seq<string>, last: string, ext: string,
                                  relSegs: seq<string>, appDist: string, name: string)
    requires AllOrdinary(parentSegs) && AllOrdinary(relSegs) && |relSegs| >= 1
    requires Ordinary(last) && Ordinary(last + ext)
    requires '$' !in name
    ensures RewriteSourcePath(FromSegments(parentSegs + [last]), appDist, name,
                              FromSegments(parentSegs + [last + ext] + relSegs))
      == name + (ext + "/" + Join(relSegs, '/'))
  {
    SiblingText(parentSegs, last, ext, relSegs);
    SiblingOrdinary(parentSegs, last + ext, relSegs);
    RewriteNormalisedSource(FromSegments(parentSegs + [last]), appDist, name,
                            parentSegs + [last + ext] + relSegs, ext + "/" + Join(relSegs, '/'));
  }
}

=== FILE: strings.dfy ===
/**
 * String helpers shared by the naming and path code: splitting on and joining with a
 * separator character, the JavaScript `filter(Boolean)` over strings, and a left-most
 * substring search (`String.prototype.indexOf`).
 */
module Strings {
  import opened Wrappers

  /** Index of the first `c` in `s`. */
  function CharIndex(s: string, c: char): (i: nat)
    requires c in s
    ensures i < |s| && s[i] == c
    ensures forall j :: 0 <= j < i ==> s[j] != c
  {
    if s[0] == c then 0 else 1 + CharIndex(s[1..], c)
  }

  /** `s.split(sep)` for a one-character separator: the maximal pieces between separators. */
  function Split(s: string, sep: char): (parts: seq<string>)
    ensures |parts| >= 1
    decreases |s|
  {
    if sep !in s then [s]
    else
      var i := CharIndex(s, sep);
      [s[..i]] + Split(s[i + 1..], sep)
  }

  /** True when no element of `parts` contains `sep`. */
  predicate FreeOf(parts: seq<string>, sep: char)
  {
    forall i :: 0 <= i < |parts| ==> sep !in parts[i]
  }

  /** No piece of a split holds the separator, and the pieces joined back give the input. */
  lemma {:induction false} JoinSplit(s: string, sep: char)
    ensures FreeOf(Split(s, sep), sep)
    ensures Join(Split(s, sep), sep) == s
    decreases |s|
  {
    if sep in s {
      var i := CharIndex(s, sep);
      JoinSplit(s[i + 1..], sep);
      assert sep !in s[..i] by {
        forall k | 0 <= k < i ensures s[..i][k] != sep { }
      }
      assert s == s[..i] + [sep] + s[i + 1..];
      JoinSplitStep(s[..i], s[i + 1..], sep);
    }
  }

  /** Putting a separator-free piece and a separator in front keeps a split joinable. */
  lemma JoinSplitStep(head: string, rest: string, sep: char)
    requires sep !in head
    requires FreeOf(Split(rest, sep), sep) && Join(Split(rest, sep), sep) == rest
    ensures FreeOf(Split(head + [sep] + rest, sep), sep)
    ensures Join(Split(head + [sep] + rest, sep), sep) == head + [sep] + rest
  {
    var tail := Split(rest, sep);
    SplitFirst(head, rest, sep);
    JoinCons(head, tail, sep);
    var parts := [head] + tail;
    forall k | 0 <= k < |parts| ensures sep !in parts[k] {
      if k > 0 { assert parts[k] == tail[k - 1]; }
    }
  }

  /** `parts.join(sep)`: the parts in order with one separator between neighbours. */
  function Join(parts: seq<string>, sep: char): (r: string)
    ensures |parts| == 0 ==> r == ""
    ensures |parts| >= 1 ==> parts[0] <= r
    ensures |parts| >= 2 ==> parts[0] + [sep] <= r
  {
    if |parts| == 0 then ""
    else if |parts| == 1 then parts[0]
    else parts[0] + [sep] + Join(parts[1..], sep)
  }

  /** `parts.filter(Boolean)`: the empty string is the only falsy string. */
  function Truthy(parts: seq<string>): (r: seq<string>)
    ensures |r| <= |parts|
    ensures forall i :: 0 <= i < |r| ==> r[i] != ""
    ensures forall x :: x in r <==> x in parts && x != ""
  {
    if |parts| == 0 then []
    else if parts[0] == "" then Truthy(parts[1..])
    else [parts[0]] + Truthy(parts[1..])
  }

  /** A join of two or more parts is the first part, one separator, and the join of the rest. */
  lemma JoinCons(x: string, rest: seq<string>, sep: char)
    requires |rest| >= 1
    ensures Join([x] + rest, sep) == x + [sep] + Join(rest, sep)
  {
    assert ([x] + rest)[1..] == rest;
  }

  /** `filter(Boolean)` keeps or drops the head and filters the rest. */
  lemma TruthyCons(x: string, rest: seq<string>)
    ensures Truthy([x] + rest) == (if x == "" then [] else [x]) + Truthy(rest)
  {
    assert ([x] + rest)[1..] == rest;
  }

  /**
   * `filter(Boolean)` works piece by piece, so it keeps the order of the kept entries
   * and every repeat of them.
   */
  lemma {:induction false} TruthyAppend(a: seq<string>, b: seq<string>)
    ensures Truthy(a + b) == Truthy(a) + Truthy(b)
    decreases |a|
  {
    if |a| == 0 {
      assert a + b == b;
    } else {
      assert (a + b)[0] == a[0];
      assert (a + b)[1..] == a[1..] + b;
      TruthyAppend(a[1..], b);
    }
  }

  /** Joining two non-empty lists puts exactly one separator between them. */
  lemma {:induction false} JoinAppend(a: seq<string>, b: seq<string>, sep: char)
    requires |a| >= 1 && |b| >= 1
    ensures Join(a + b, sep) == Join(a, sep) + [sep] + Join(b, sep)
    decreases |a|
  {
    if |a| == 1 {
      assert (a + b)[1..] == b;
    } else {
      JoinAppend(a[1..], b, sep);
      assert (a + b)[1..] == a[1..] + b;
    }
  }

  /** The first piece of a split is everything before the first separator. */
  lemma SplitFirst(head: string, tail: string, sep: char)
    requires sep !in head
    ensures Split(head + [sep] + tail, sep) == [head] + Split(tail, sep)
  {
    var s := head + [sep] + tail;
    assert s[|head|] == sep;
    var i := CharIndex(s, sep);
    assert forall j :: 0 <= j < |head| ==> s[j] == head[j];
    assert i == |head|;
    assert s[..i] == head && s[i + 1..] == tail;
  }

  /** Splitting undoes joining when no piece holds the separator. */
  lemma {:induction false} SplitJoin(parts: seq<string>, sep: char)
    requires |parts| >= 1 && FreeOf(parts, sep)
    ensures Split(Join(parts, sep), sep) == parts
    decreases |parts|
  {
    if |parts| > 1 {
      var rest := parts[1..];
      assert FreeOf(rest, sep) by {
        forall k | 0 <= k < |rest| ensures sep !in rest[k] {
          assert rest[k] == parts[k + 1];
        }
      }
      SplitJoin(rest, sep);
      assert Join(parts, sep) == parts[0] + [sep] + Join(rest, sep);
      SplitFirst(parts[0], Join(rest, sep), sep);
      assert parts == [parts[0]] + rest;
    }
  }

  /** `pat` occurs in `s` starting at index `k`. */
  predicate OccursAt(s: string, pat: string, k: nat)
  {
    k + |pat| <= |s| && s[k..k + |pat|] == pat
  }

  /** Left-most occurrence of `pat` in `s` at or after `from`. */
  function IndexFrom(s: string, pat: string, from: nat): (r: Option<nat>)
    requires from <= |s| + 1
    ensures r.Some? ==> from <= r.value && OccursAt(s, pat, r.value)
    ensures r.Some? ==> forall j :: from <= j < r.value ==> !OccursAt(s, pat, j)
    ensures r.None? ==> forall j :: from <= j ==> !OccursAt(s, pat, j)
    decreases |s| + 1 - from
  {
    if from + |pat| > |s| then None
    else if s[from..from + |pat|] == pat then Some(from)
    else IndexFrom(s, pat, from + 1)
  }

  /** `s.indexOf(pat)`, with `None` for the source's `-1`. */
  function IndexOf(s: string, pat: string): (r: Option<nat>)
    ensures r.Some? <==> exists k :: OccursAt(s, pat, k)
    ensures r.Some? ==> OccursAt(s, pat, r.value) && forall j :: 0 <= j < r.value ==> !OccursAt(s, pat, j)
  {
    IndexFrom(s, pat, 0)
  }

  /** A string is found at position 0 of anything it prefixes. */
  lemma IndexOfPrefix(pat: string, rest: string)
    ensures IndexOf(pat + rest, pat) == Some(0)
  {
    assert OccursAt(pat + rest, pat, 0);
  }
}

=== FILE: wrappers.dfy ===
/** The optional-value datatype used for JavaScript values that may be `undefined`. */
module Wrappers {

  /** `None` stands for `undefined` (or any other value the source treats as absent). */
  datatype Option<+T> = None | Some(value: T)
}
